=== FILE: README.md ===
# Referral bot registration core, in Dafny

This project models the core of a Telegram referral bot and proves properties of that model.

A new user reaches the bot with `/start <code>`, where `code` is another user's referral code. Users who have a Telegram username are registered at once. The others go through a dialogue:

1. full name;
2. e-mail (`-` skips it);
3. phone (`-` skips it);
4. a `да`/`нет` confirmation.

When the user confirms, the bot creates them with a fresh eight-digit hexadecimal code. It also records a referral edge from the owner of the pending code to the new user, but only when that owner is someone else. The same rule applies to a registered user who sends `/start <code>`.

The persistence layer is a PostgreSQL class. Here it is an immutable in-memory `Store` with operations that mirror its methods.

Modules:

- `Base` (base.dfy): `Option` and first-match search over sequences.
- `PyText` (pytext.dfy): the Python `str` operations the handlers use:
  - `strip`, `split`, `lower` and `filter`;
  - `str(int)` and `int(str)`.
- `EmailPattern` (email.dfy): the e-mail regular expression of `get_email`. It appears twice:
  - as the language it denotes;
  - as a recogniser.

  A proof shows the two agree.
- `ReferralCode` (referral_code.dfy): `token_hex(4).upper()` as a function of the four random bytes.
- `Database` (database.py → database.dfy):
  - the tables, with their constraints as the invariant `Valid`;
  - sessions, users, referrals, payouts and statistics.
- `Handlers` (handlers.py → handlers.dfy):
  - `start`, `process_referral_code` and the three branches of `start`;
  - the `NAME`/`EMAIL`/`PHONE`/`COMPLETE` steps, confirmation and `cancel`;
  - referral attribution.
- `Conversation` (conversation.dfy):
  - which handler an update reaches in each dialogue state;
  - a complete referred registration, from `/start <code>` to the new edge.
- `Commands` (commands.dfy): `handle_message` routing and `/setphone` argument checking.

## Store calls and failures

Every database method catches its own exceptions and returns a failure value (`None`, `False` or zeros). So every operation in `Database` takes `up: bool`, which says whether its connection and transaction succeed. A failed call leaves the store unchanged.

A handler takes `f: Faults`, the set of its numbered call sites whose store call fails. Each handler's doc comment lists its sites, and `{}` means every call succeeds. The handlers' replies are modelled as a `Reply` tag, not as message text.

## Behaviour the model keeps as the code has it

- A fresh session has the string step `'start'`, not `NAME` (database.py:213). The handlers then write integer steps.
- A later `/start <code>` overwrites an earlier pending code (handlers.py:120-121).
- Answering `нет` passes `registration_data={}`. An empty dict is falsy, so nothing is merged and the payload is kept; only the step returns to `NAME` (handlers.py:278 with database.py:234).
- `create_user` draws one code and does not retry on a collision. The insert simply fails (database.py:160-175).
- `mark_bonus_paid` does not look at `bonus_paid` first. Paying twice records two payouts (database.py:313-328; see `Database.MarkBonusPaidTwice`).
- `create_user` returns `(None, None)` instead of raising. So auto-registration by username always announces success, even when nothing was inserted (handlers.py:79-114; see `Handlers.AutoRegisterAnnouncesFailedInsert`).
- `/setphone` probes the database layer for three update methods, and none of them exists. So it never writes. For an existing user it reports that the method is missing (handlers.py:778-801).
- An unregistered user's `/start` with an unknown code stores the code without complaint. Only registered users get "invalid code" (handlers.py:140-159).
- The dialogue's entry filter `^(start|старт)$` is case-sensitive, but `handle_message` lower-cases first. `Start` therefore calls `start` outside the conversation, and the dialogue stays idle (see `Commands.CapitalisedStartBypassesDialogue`).

## Model

| member | source | states |
|---|---|---|
| Database.GetUserByTelegramId | database.py:177-184 | The result is a row of that Telegram id, or `None` when the read fails or there is none; in a valid store it is the one such row |
| Database.GetUserByReferralCode | database.py:186-193 | The result is the user owning the code, or `None` on failure or when no one owns it; in a valid store it is the unique owner |
| Database.UserExists | database.py:195-202 | True only for a registered id, and true for every registered id when the read succeeds; false whenever the read fails |
| Database.IsAdmin | database.py:330-337 | True exactly when the read succeeds and an active admin row with that id exists |
| Database.GetUserSession | database.py:204-211 | The first session row of the id when one exists and the read succeeds, otherwise `None` |
| Database.CreateUserSession | database.py:213-224 | Appends one row with step `'start'` and an empty payload whether or not the id already has one, so the id's row count grows by one; an existing first row stays first; every other caller's rows are kept and only sessions change |
| Database.UpdateUserSession | database.py:226-246 | On a missing session returns `None` and writes nothing; otherwise the step is the new one when truthy else the old one, the payload is the old one with the given keys overwritten and all others kept, every row of the id gets the result, other rows and the row count are untouched |
| Database.ReplaceKeepsOwners | database.py:236-241 | Rewriting the rows of an id keeps exactly the same set of ids having a session |
| Database.ReplaceKeepsOthers | database.py:236-241 | Rewriting the rows of an id keeps every row of another id and adds none |
| Database.Rewrite | database.py:236-241 | The write of `update_user_session`: every row of the id becomes the new row, which is then the row a read finds; every other row stays in its place; the same ids have sessions |
| Database.ReplaceKeepsCount | database.py:236-241 | Rewriting the rows of an id keeps the number of rows of that id |
| Database.DeleteUserSession | database.py:248-253 | On success no row of the id is left; every row of another id stays and none is added; only sessions change |
| Database.CreateUser | database.py:158-175 | Succeeds exactly when the connection is up, the Telegram id and the drawn code are both unused and every column fits; on success the new row carries the next id and the drawn code, which is eight upper-case hex digits; on failure nothing changes; validity is preserved |
| Database.AppendUserValid | database.py:163-167 | Appending a row with the next id, an unused Telegram id and an unused well-formed code keeps every table constraint |
| Database.CreateReferral | database.py:255-266 | Succeeds exactly when both users exist and the code fits; appends one edge with both flags false and changes nothing else; does not look for an existing edge |
| Database.UpdateBonusBalance | database.py:300-311 | In a valid store, reports success exactly when the user exists and the sum fits `DECIMAL(10,2)`; adds the amount to that user only; every other row is unchanged |
| Database.BalanceChangeValid | database.py:303-307 | Changing balances only keeps every table constraint |
| Database.MarkBonusPaid | database.py:313-328 | In a valid store, succeeds exactly when the edge exists; flags it paid and appends one payout of `REFERRAL_BONUS_AMOUNT` to its referrer; balances are untouched; on failure nothing changes |
| Database.MarkBonusPaidPaysReferrer | database.py:313-328 | Paying an existing edge pays its own referrer and leaves the edge in the table, now paid |
| Database.MarkBonusPaidTwice | database.py:316-324 | Paying the same edge twice succeeds twice and appends two identical payouts |
| Database.MarkPaidCount | database.py:318 | Flagging the one edge with an id adds one to the paid count exactly when that edge was unpaid |
| Database.MarkBonusPaidStats | database.py:339-363 | After a payment the paid count rises and the unpaid count falls by one for an unpaid edge, and neither moves for an edge already paid |
| Database.PaidPartition | database.py:350-354 | Unpaid plus paid edges is all edges |
| Database.CountPaidCounts | database.py:350-354 | The running count of edges with a given flag is the number of rows `WHERE bonus_paid` has that value |
| Database.GetAdminStats | database.py:339-363 | All zeros on failure; otherwise the number of users, of edges, of unpaid edges (`bonus_paid = FALSE`) and of paid edges (`bonus_paid = TRUE`), the last two adding up to the edges |
| Database.ValidIgnoresSessions | database.py:133-141 | Session rows carry no constraint: changing only them keeps a store valid |
| Database.UniqueKeys | database.py:82-90 | In a valid store two users sharing an id, Telegram id or referral code are the same user |
| ReferralCode.NewCode | database.py:160 | Every drawn code is eight characters of `0-9A-F` |
| ReferralCode.HexRoundTrip | database.py:160 | Reading the hex text back gives the drawn bytes |
| ReferralCode.NewCodeInjective | database.py:160 | Two draws give the same code exactly when they are the same bytes |
| PyText.StripIdempotent | handlers.py:164 | Stripping twice is stripping once |
| PyText.StripCharacterization | handlers.py:164 | Stripping removes exactly the surrounding whitespace of text with an unpadded core |
| PyText.SplitJoinRoundTrip | handlers.py:166 | Splitting words joined by single spaces gives the words back |
| PyText.StripLowerCommute | handlers.py:268 | Lower-casing and stripping commute, so `strip().lower()` and `lower().strip()` agree |
| PyText.LowerFixedPoints | handlers.py:268 | Lower-casing leaves a text unchanged exactly when it has no upper-case letter |
| PyText.Filter | handlers.py:229 | The kept characters all pass the test and come from the input, every passing character is kept, and a text that passes throughout is returned unchanged |
| PyText.FilterAppend | handlers.py:229 | Filtering a concatenation is concatenating the filtered parts, so the kept characters stay in input order |
| PyText.FilterCount | handlers.py:229-230 | The filtered text has one character for each position of the input that passes the test |
| PyText.CountDigitsCounts | handlers.py:229-230 | The digit count is the number of positions holding a digit |
| PyText.IntToStringRoundTrip | handlers.py:763-767 | `int(str(n)) == n` for every integer |
| EmailPattern.IndexOf | handlers.py:200 | The first occurrence of a character: all before it differ |
| EmailPattern.LastIndexOf | handlers.py:200 | The last occurrence of a character: all after it differ |
| EmailPattern.RecognizerMatchesPattern | handlers.py:200 | The recogniser accepts exactly the language of the e-mail pattern |
| EmailPattern.StrippedInputMatchesIffRecognized | handlers.py:197-201 | On stripped input, `re.match` with a final `$` succeeds exactly when the recogniser accepts |
| EmailPattern.AcceptedHasOneAtAndNoSpace | handlers.py:200 | An accepted address has exactly one `@` and no whitespace |
| Handlers.Field | handlers.py:288-296 | A payload key gives a value exactly when it holds a string; absent and `null` both give `None` |
| Handlers.PendingCode | handlers.py:303-304 | The pending code is present exactly when the payload holds a non-empty string under `referral_code` |
| Handlers.ReadPayload | handlers.py:179-180 | A handler reads the first session's payload, or an empty one when the read fails or finds none |
| Handlers.MergeOverSelf | handlers.py:179-182 | Merging a payload built on the stored one over the stored one is merging the new keys only |
| Handlers.Attribute | handlers.py:92-95 | At most one edge is added, and only one redeemed from the code by its owner for another user; only referrals change; with both calls up and another owner exactly one edge is added; a code not owned by another user changes nothing |
| Handlers.AttributionCarriesOver | handlers.py:300-319 | An edge redeemed between the insert and the attribution still counts as the only new edge once the session is deleted |
| Handlers.NoSelfReferral | handlers.py:93-95 | On any of the three paths, a code the caller owns never yields an edge |
| Handlers.AddedEdgeLinksOwner | handlers.py:144-148 | An added edge runs from the unique owner of the code to the unique user of the caller, with the code and both flags false |
| Handlers.StartCode | handlers.py:57-58 | The code is the first argument exactly when it is present and non-empty |
| Handlers.ProcessReferralCode | handlers.py:140-159 | "Invalid code" exactly when no other user owns the code (lookup up), and then nothing changes; with all calls up and another owner, exactly one edge is added and the owner's username is reported |
| Handlers.AutoRegister | handlers.py:79-114 | Ends with the auto-registration reply whatever happened; sessions, payouts and admins untouched; a user is added exactly when the insert is up, the caller and the drawn code are both new and the username fits, and then it is one row with the username and no personal fields; at most one redeemed edge, and exactly one when a user was added, another user owns the code and both attribution calls are up |
| Handlers.OpenSession | handlers.py:116-130 | Asks for the name; a session is created only when the read finds none, so a failed read adds a second row next to an existing one, and with no session a failed create writes nothing; an existing session keeps its row count; the code replaces `referral_code` in the first session's payload, all else kept; only sessions change, and other callers' are kept |
| Handlers.Returning | handlers.py:62-77 | A registered caller ends the dialogue; a code is redeemed through `process_referral_code`, whose store and reply are the result; users, sessions, payouts and admins stay; with no code the store is untouched and the caller is welcomed back |
| Handlers.Start | handlers.py:51-134 | A caller known to be registered gets the returning-user branch with the code; otherwise a caller with a username is auto-registered with the code, and one without opens a session with the code and goes to NAME; a user is added exactly when the caller has a username, is new, the insert is up, the drawn code is free and the username fits; ending never touches sessions; payouts and admins never change; other callers' sessions are kept; a code gives at most one redeemed edge; no code gives no edge |
| Handlers.AutoRegisterAnnouncesFailedInsert | handlers.py:82-107 | When the drawn code is already taken, `/start` by a user with a username reports success and writes nothing |
| Handlers.NamePiece | handlers.py:171-176 | The four name fields: surname, given name, patronymic or `''`, and the whole input |
| Handlers.SaveStep | handlers.py:178-182 | The first session gets the new step and its payload merged with the piece; no session, no write; only sessions change, and only the caller's |
| Handlers.GetName | handlers.py:161-192 | Fewer than two words repeats NAME with nothing written; otherwise moves to EMAIL, and when the write succeeds and a session exists it merges the four fields and keeps every other payload key, a pending code included; a failed write or a missing session stores nothing; other callers' sessions are kept |
| Handlers.GetNameStoresWords | handlers.py:164-176 | A name typed as words joined by spaces is stored word by word, with the whole text as the full name |
| Handlers.GetEmail | handlers.py:194-221 | Moves to PHONE exactly when the stripped input is `-` or matches the pattern, storing `null` or the input when the write succeeds and a session exists; otherwise repeats EMAIL with nothing written; a failed write or a missing session stores nothing; other callers' sessions are kept |
| Handlers.GetPhone | handlers.py:223-264 | Moves to COMPLETE exactly when the stripped input is `-` or has at least ten digits, storing `null` or the input as typed when the write succeeds and a session exists; otherwise repeats PHONE with nothing written; a failed write or a missing session stores nothing; other callers' sessions are kept; when the re-read succeeds, the summary shows the stored payload |
| Handlers.GetPhoneDigitRule | handlers.py:227-230 | The phone step moves on exactly for `-` or an input in which at least ten positions hold a digit |
| Handlers.Summarize | handlers.py:245-257 | The summary shows the pending code exactly when there is one; the full name, "Не указано" when absent, or `None` for a `null` name; the e-mail and the phone when they are non-empty strings and "Не указан" when absent, `null` or empty; the Telegram username, or "Не указан" without one |
| Handlers.UsernameFor | handlers.py:285 | The Telegram username, or `user_<id>` without one |
| Handlers.Confirmed | handlers.py:281-341 | Always ends; succeeds exactly when the insert can (up, new id, free code, fields fit); success appends the row built from the payload, redeems the pending code at most once (exactly once for another owner with both calls up) and drops the caller's session, keeping other callers'; failure writes nothing; payouts and admins never change |
| Handlers.CompleteRegistration | handlers.py:266-353 | `нет` returns to NAME changing only the step and keeping the payload, and stores nothing when the write fails or there is no session; `да` registers; any other answer asks again and changes nothing; payouts and admins never change; other callers' sessions are kept |
| Handlers.Cancel | handlers.py:355-367 | Ends the dialogue and removes every session row of the caller; every other caller's rows are kept; nothing else changes |
| Conversation.Step | handlers.py:829-834 | Text in NAME, EMAIL, PHONE and COMPLETE reaches `get_name`, `get_email`, `get_phone` and `complete_registration` respectively; every move follows the state diagram, writes no user or edge unless the dialogue ends, never changes payouts or admins, and keeps the store valid |
| Conversation.Deliver | handlers.py:824-836 | Idle: only `/start` (with its arguments) and the exact start words (with none) enter, and they reach `start`. In a dialogue: text always goes to the state's handler, and of the commands only `/cancel` is taken, which runs `cancel`. Every move follows the diagram, payouts and admins never change, and validity is kept |
| Conversation.CanonicalAnswers | handlers.py:199-228 | `-` and `да` are read as the skip token and the yes answer as typed |
| Conversation.OpenWithCode | handlers.py:116-130 | `/start <code>` from a new caller without a username opens a session whose payload is just the code |
| Conversation.NameStep | handlers.py:161-188 | A well-formed name adds the four fields to the payload and moves to EMAIL |
| Conversation.WalkPayloadFields | handlers.py:288-309 | The payload of that walk yields the pending code, fits the columns, and builds the row with surname, given name and patronymic in their places |
| Conversation.WalkToConfirmation | handlers.py:51-264 | Start, name, skip e-mail, skip phone reaches COMPLETE with payload: code, name fields, two `null`s |
| Conversation.WalkReady | handlers.py:51-264 | That walk changes only sessions and leaves everything the confirmation needs in place |
| Conversation.ConfirmReferred | handlers.py:283-324 | Confirming with another user's pending code creates the user, adds exactly one edge from the code's owner to them, and drops the session |
| Conversation.UnadaptedWalkStoresNothing | database.py:213-246 | With every dict write failing, `/start <code>` by a new caller without a username and the three dialogue steps leave the store exactly as it was |
| Conversation.ConfirmWithoutSession | handlers.py:281-341 | Confirming `да` with no session reads an empty payload: the user is created with no name, e-mail or phone, and no edge is added |
| Conversation.UnadaptedRegistration | database.py:220 | Without a dict adapter, the referred registration still reports success but creates a user with empty personal fields and no edge from the code's owner |
| Conversation.ReferredRegistration | handlers.py:51-341 | The whole referred registration: one new user with the typed name, exactly one edge from the code's owner to them, no session left |
| Commands.Normalize | handlers.py:718 | The routed form is unpadded and has no upper-case letter |
| Commands.NormalizeIdempotent | handlers.py:718 | Normalising twice is normalising once |
| Commands.RouteMessage | handlers.py:715-744 | A text goes to `/setphone` exactly when its routed form starts with `/setphone`; otherwise to `start` exactly when that form is a start word, and then to help exactly when it is a help word |
| Commands.RouteIgnoresCaseAndPadding | handlers.py:718 | A text routes like its lower-cased form and like its stripped form |
| Commands.HelpCommandNotUnderstood | handlers.py:725-741 | The `/help` command's own text is not understood |
| Commands.RouteFixed | handlers.py:725-741 | The corrected routing answers the bare `/help` with the help text and agrees with the original everywhere else |
| Commands.HelpCommandAnswered | handlers.py:725-741 | `/help`, however capitalised or padded, is answered with help by the corrected routing and not by the original |
| Commands.CapitalisedStartBypassesDialogue | handlers.py:724-725 | `Start` does not enter the dialogue but is routed to `start` by `handle_message` |
| Commands.PhoneCharsKeepDigits | handlers.py:771-772 | Keeping digits and `+` keeps every digit |
| Commands.ParsePhoneArgs | handlers.py:757-773 | Rejects with usage exactly for fewer than two arguments, then with a bad id exactly when the first does not parse as an integer, then with a bad number exactly when the second has fewer than ten digits, and accepts exactly otherwise; an accepted id is the parsed one, and an accepted number consists of digits and `+` and has the same digits in the same order as the argument |
| Commands.SetPhoneArgsRoundTrip | handlers.py:764-773 | `str(id)` and a clean number of ten or more digits are accepted as exactly that id and number, whatever follows |
| Commands.SetPhone | handlers.py:746-806 | Refused exactly for a non-admin; an admin gets the argument checker's rejection unchanged; "no update method" only for an existing user, and, with the lookup up, exactly then; "attempt made" exactly for an admin with accepted arguments whose target is not found registered |
| Commands.SetPhoneForRegisteredUser | handlers.py:778-795 | An admin naming a registered user with a valid number is told the update method is missing |

## Left out

- Telegram I/O: message text, keyboards, QR images, links, the error handler, and the `ConversationHandler` object itself. Replies are `Reply` tags. The dispatch of an update is stated in `Conversation.Deliver`.
- Commands other than `/start`, `/cancel` and `/setphone`: `/mycode`, `/myref`, `/balance`, `/referrals`, `/adminpanel` and `/export`. They read the store or format it and are not part of the registration core.
- The button handlers `admin_button_handler` and `button_handler` (handlers.py:516-692) are not modelled as handlers. The `pay_` branch of `button_handler` writes, through `mark_bonus_paid` (handlers.py:652-656), and `Database.MarkBonusPaid` models that write. Their other branches read or format.
- `get_user_referrals`, `get_unpaid_referrals` and `export_to_excel` (database.py:268-298, 365-399) are read-only queries or file formatting that the registration core does not call.
- psycopg2 connections, cursors, commit and rollback, and schema creation. Each call is one transaction that either succeeds (`up`) or leaves the store unchanged.
- Parameter adaptation: the model assumes a dict-to-JSON adapter for the `JSONB` payload. Without one, `create_user_session` and `update_user_session` always fail: these are `Start`'s sites 8 and 9 and the dialogue steps' site 1. `Conversation.UnadaptedRegistration` states what the code does then (see Findings).
- Randomness: the four bytes of `secrets.token_hex(4)` are a parameter.
- Timestamps (`registration_date`, `created_at`, `updated_at`) carry no behaviour here.
- SERIAL gaps: `nextUserId` and `nextReferralId` stand for the sequences' next values. A failed insert that advances a sequence in PostgreSQL does not advance it here, so the ids the model predicts for a new row (`CreateUser`, `Confirmed`, `ReferredRegistration`) are the ids of a database whose inserts have not failed before.
- Concurrency between two updates of the same user.
- Database.FirstSession: `fetchone()` after a `SELECT` without `ORDER BY` (database.py:207) may return any row of the id. The model returns the first in storage order. The handlers keep every row of an id equal after their first write, because `update_user_session` rewrites all of them, but a second `create_user_session` row differs until then.
- Database.UpdateBonusBalance: amounts are whole units, not `DECIMAL(10,2)` fractions, because the bonus amount is whole.
- Database.CreateUser: an over-long `VARCHAR` value is a failure. PostgreSQL's silent truncation of trailing spaces is not modelled, because every value the handlers pass is stripped.
- PyText.IsDigit: `str.isdigit` and `str.lower` are limited to ASCII digits, and to ASCII and Cyrillic letters. Other Unicode digits and letters are not modelled.

## Findings

| source | as written | input that shows it | evidently intended | confidence | as-written member | corrected member |
|---|---|---|---|---|---|---|
| handlers.py:846 with handlers.py:718-741 | `/help` is routed to `handle_message`, which compares the text `/help` with `помощь`, `help` and `команды` and so answers "I do not understand, use /help" | the command `/help` | `/help` lists the commands, as the words `help` and `помощь` do | high; not executed | Commands.HelpCommandNotUnderstood | Commands.RouteFixed |
| database.py:220 with database.py:241 | the session payload is bound to the `JSONB` column as a plain Python dict. Only `RealDictCursor` is imported, and neither `psycopg2.extras.Json` nor a registered dict adapter is used, so psycopg2 raises "can't adapt type 'dict'". Every create and update of a session then fails and returns `None` | `/start <code>` by a user without a Telegram username, followed by a name, `-`, `-` and `да` | the payload is stored as JSON, so the confirmation sees the typed name and the pending code | high; not executed | Conversation.UnadaptedRegistration | Conversation.ReferredRegistration |

=== FILE: base.dfy ===
/** Small shared vocabulary: an optional value and a first-match search over sequences. */
module Base {

  /** Python's `None` / a present value. */
  datatype Option<+T> = None | Some(value: T) {

    /** The present value, or `default` when absent. */
    function GetOr(default: T): T {
      match this
      case Some(v) => v
      case None => default
    }
  }

  /** Index of the first element of `xs` satisfying `p`, as a `fetchone()` over rows in storage order. */
  function FirstIndex<T>(xs: seq<T>, p: T -> bool): (r: Option<nat>)
    ensures r.Some? ==> r.value < |xs| && p(xs[r.value])
    ensures r.Some? ==> forall j :: 0 <= j < r.value ==> !p(xs[j])
    ensures r.None? ==> forall j :: 0 <= j < |xs| ==> !p(xs[j])
    decreases |xs|
  {
    if |xs| == 0 then None
    else if p(xs[0]) then Some(0)
    else
      match FirstIndex(xs[1..], p)
      case None => None
      case Some(i) => Some(i + 1)
  }

  /** The first element of `xs` satisfying `p`, if any. */
  function FirstWhere<T>(xs: seq<T>, p: T -> bool): (r: Option<T>)
    ensures r.Some? ==> r.value in xs && p(r.value)
    ensures r.None? ==> forall x :: x in xs ==> !p(x)
  {
    match FirstIndex(xs, p)
    case None => None
    case Some(i) => Some(xs[i])
  }
}

=== FILE: commands.dfy ===
/**
 * The two text parsers of handlers.py outside the registration dialogue: `handle_message`
 * (lines 715-744), which routes free text by its lower-cased, stripped form, and
 * `set_phone_command` (lines 746-806), the administrators' `/setphone <telegram_id> <number>`.
 */
module Commands {

  import opened Base
  import opened PyText
  import opened ReferralCode
  import opened Database
  import opened Handlers
  import Conversation

  // ---------------------------------------------------------------- handle_message

  /** Where `handle_message` sends a text. */
  datatype Route = SetPhoneRoute | StartRoute | HelpRoute | NotUnderstood

  const START_WORDS: seq<string> := ["start", "старт"]
  const HELP_WORDS: seq<string> := ["помощь", "help", "команды"]
  const SETPHONE: string := "/setphone"

  /** `text.lower().strip()`: the form every routing decision looks at. */
  function Normalize(text: string): (t: string)
    ensures Unpadded(t)
    ensures forall k :: 0 <= k < |t| ==> !IsUpper(t[k])
  {
    var t := Strip(Lower(text));
    StripLowerCommute(text);
    t
  }

  /** The routing of `handle_message`: `/setphone` prefix first, then the start and help words. */
  function RouteMessage(text: string): (r: Route)
    ensures r == SetPhoneRoute <==> StartsWith(Normalize(text), SETPHONE)
    ensures r == StartRoute <==> !StartsWith(Normalize(text), SETPHONE) && Normalize(text) in START_WORDS
    ensures r == HelpRoute <==>
              !StartsWith(Normalize(text), SETPHONE) && Normalize(text) !in START_WORDS
              && Normalize(text) in HELP_WORDS
  {
    var t := Normalize(text);
    if StartsWith(t, SETPHONE) then SetPhoneRoute
    else if t in START_WORDS then StartRoute
    else if t in HELP_WORDS then HelpRoute
    else NotUnderstood
  }

  /** Normalising twice is normalising once. */
  lemma NormalizeIdempotent(text: string)
    ensures Normalize(Normalize(text)) == Normalize(text)
  {
    var t := Normalize(text);
    LowerFixedPoints(t);
    StripUnpadded(t);
  }

  /**
   * Routing ignores letter case and surrounding whitespace: a text routes like its
   * lower-cased form and like its stripped form.
   */
  lemma RouteIgnoresCaseAndPadding(text: string)
    ensures RouteMessage(Lower(text)) == RouteMessage(text)
    ensures RouteMessage(Strip(text)) == RouteMessage(text)
  {
    LowerIdempotent(text);
    StripLowerCommute(text);
    StripLowerCommute(Strip(text));
    StripIdempotent(text);
  }

  /**
   * `/help` is registered as a command whose handler is `handle_message`, but the text
   * it receives is `/help` itself, which is none of the help words: the bot answers that
   * it does not understand and suggests `/help`.
   */
  lemma HelpCommandNotUnderstood()
    ensures RouteMessage("/help") == NotUnderstood
  {
    var t := "/help";
    StripUnpadded(t);
    LowerFixedPoints(t);
    assert Normalize(t) == t;
    assert !StartsWith(t, SETPHONE);
  }

  /** The routing with the bare `/help` command answered by the help text. */
  function RouteFixed(text: string): (r: Route)
    ensures Normalize(text) != "/help" ==> r == RouteMessage(text)
    ensures Normalize(text) == "/help" ==> r == HelpRoute
  {
    if Normalize(text) == "/help" then HelpRoute else RouteMessage(text)
  }

  /** With the correction `/help`, in any capitalisation and padding, lists the commands. */
  lemma HelpCommandAnswered(text: string)
    requires Lower(Strip(text)) == "/help"
    ensures RouteFixed(text) == HelpRoute
    ensures RouteMessage(text) == NotUnderstood
  {
    StripLowerCommute(text);
    HelpCommandNotUnderstood();
    var t := "/help";
    StripUnpadded(t);
    LowerFixedPoints(t);
  }

  /**
   * The dialogue's entry filter is case-sensitive and `handle_message`'s routing is not, so
   * `Start` passes the conversation by and reaches `handle_message`, which calls `start`
   * outside the conversation: whatever `start` does to the store, the dialogue stays idle.
   */
  lemma CapitalisedStartBypassesDialogue(s: Store, f: Faults, caller: Caller, token: Token)
    ensures Conversation.Deliver(End, s, f, caller, Conversation.Text("Start"), token).None?
    ensures RouteMessage("Start") == StartRoute
  {
    var t := "Start";
    assert Lower(t) == "start";
    StripUnpadded("start");
  }

  // ---------------------------------------------------------------- set_phone_command

  /** The replies of `set_phone_command`. */
  datatype PhoneReply =
    | Forbidden        // the caller is not an active administrator
    | Usage            // fewer than two arguments
    | BadTelegramId    // the first argument is not an integer
    | BadNumber        // fewer than ten digits in the second argument
    | NoUpdateMethod   // the target user exists, but the database layer has no update method
    | AttemptMade      // no such user found: "attempt made, check the database"

  /** The argument check: a reply that ends the command, or the target and the cleaned number. */
  datatype PhoneArgs = Rejected(reply: PhoneReply) | Accepted(target: int, number: string)

  const MIN_SETPHONE_DIGITS: nat := 10

  /** The characters the number keeps: digits and `+`. */
  predicate IsPhoneChar(c: char) {
    IsDigit(c) || c == '+'
  }

  /** Removing every character but digits and `+` keeps every digit. */
  lemma {:induction false} PhoneCharsKeepDigits(s: string)
    ensures Filter(Filter(s, IsPhoneChar), IsDigit) == Filter(s, IsDigit)
    decreases |s|
  {
    if |s| > 0 {
      var head := if IsPhoneChar(s[0]) then [s[0]] else "";
      assert Filter(s, IsPhoneChar) == head + Filter(s[1..], IsPhoneChar);
      FilterAppend(head, Filter(s[1..], IsPhoneChar), IsDigit);
      PhoneCharsKeepDigits(s[1..]);
    }
  }

  /** The argument checks of lines 758-773, in their order. */
  function ParsePhoneArgs(args: seq<string>): (r: PhoneArgs)
    ensures r.Rejected? ==> r.reply in {Usage, BadTelegramId, BadNumber}
    ensures r == Rejected(Usage) <==> |args| < 2
    ensures r == Rejected(BadTelegramId) <==> |args| >= 2 && ParseInt(args[0]).None?
    ensures r.Rejected? && r.reply == BadNumber <==>
              |args| >= 2 && ParseInt(args[0]).Some? && CountDigits(args[1]) < MIN_SETPHONE_DIGITS
    ensures r.Accepted? <==>
              |args| >= 2 && ParseInt(args[0]).Some? && CountDigits(args[1]) >= MIN_SETPHONE_DIGITS
    ensures r.Accepted? ==>
              && ParseInt(args[0]) == Some(r.target)
              && (forall k :: 0 <= k < |r.number| ==> IsPhoneChar(r.number[k]))
              && Filter(r.number, IsDigit) == Filter(args[1], IsDigit)
  {
    if |args| < 2 then Rejected(Usage)
    else match ParseInt(args[0])
      case None => Rejected(BadTelegramId)
      case Some(target) =>
        var number := Filter(args[1], IsPhoneChar);
        PhoneCharsKeepDigits(args[1]);
        if CountDigits(number) < MIN_SETPHONE_DIGITS then Rejected(BadNumber)
        else Accepted(target, number)
  }

  /**
   * The inverse of the check: `/setphone str(id) number` with a number of digits and `+`
   * holding ten digits or more is accepted as exactly that id and number, whatever follows.
   */
  lemma SetPhoneArgsRoundTrip(target: int, number: string, rest: seq<string>)
    requires forall k :: 0 <= k < |number| ==> IsPhoneChar(number[k])
    requires CountDigits(number) >= MIN_SETPHONE_DIGITS
    ensures ParsePhoneArgs([IntToString(target), number] + rest) == Accepted(target, number)
  {
    IntToStringRoundTrip(target);
  }

  /**
   * `set_phone_command`. Call sites: 0 is `is_admin` (a failure reads as "not an admin"),
   * 1 is `get_user_by_telegram_id` (a failure reads as "no such user"). The database layer
   * has none of the update methods the command probes for, so no branch writes: the
   * result is a reply only, and the store is an input and nothing else.
   */
  function SetPhone(s: Store, f: Faults, callerId: int, args: seq<string>): (r: PhoneReply)
    ensures r != Forbidden <==> IsAdmin(s, Up(f, 0), callerId)
    ensures IsAdmin(s, Up(f, 0), callerId) && ParsePhoneArgs(args).Rejected? ==> r == ParsePhoneArgs(args).reply
    ensures r == AttemptMade <==>
              IsAdmin(s, Up(f, 0), callerId) && ParsePhoneArgs(args).Accepted?
              && !(Up(f, 1) && Registered(s, ParsePhoneArgs(args).target))
    ensures r == NoUpdateMethod ==> ParsePhoneArgs(args).Accepted? && Registered(s, ParsePhoneArgs(args).target)
    ensures (Up(f, 1) && IsAdmin(s, Up(f, 0), callerId) && ParsePhoneArgs(args).Accepted?) ==>
              (r == NoUpdateMethod <==> Registered(s, ParsePhoneArgs(args).target))
  {
    if !IsAdmin(s, Up(f, 0), callerId) then Forbidden
    else match ParsePhoneArgs(args)
      case Rejected(reply) => reply
      case Accepted(target, _) =>
        if GetUserByTelegramId(s, Up(f, 1), target).Some? then NoUpdateMethod else AttemptMade
  }

  /** An administrator who names a registered user with a valid number is told the update is impossible. */
  lemma SetPhoneForRegisteredUser(s: Store, admin: int, u: User, number: string)
    requires IsAdmin(s, true, admin) && u in s.users
    requires forall k :: 0 <= k < |number| ==> IsPhoneChar(number[k])
    requires CountDigits(number) >= MIN_SETPHONE_DIGITS
    ensures SetPhone(s, {}, admin, [IntToString(u.telegramId), number]) == NoUpdateMethod
  {
    SetPhoneArgsRoundTrip(u.telegramId, number, []);
    assert [IntToString(u.telegramId), number] + [] == [IntToString(u.telegramId), number];
  }
}

=== FILE: conversation.dfy ===
/**
 * The `ConversationHandler` that handlers.py wires up at lines 824-836: which handler an
 * incoming update reaches, given the caller's dialogue state. Outside a dialogue only the
 * entry points (`/start`, and the bare words `start` and `старт`) are live; inside one,
 * plain text goes to the handler of the current state, `/cancel` to the fallback, and
 * every other command passes the conversation by.
 */
module Conversation {

  import opened Base
  import opened PyText
  import opened ReferralCode
  import opened Database
  import opened Handlers

  /** An incoming update: a bot command with its arguments, or plain text. */
  datatype Message = Command(name: string, args: seq<string>) | Text(text: string)

  /** `filters.Regex(r'^(start|старт)$')`; `$` also matches before a final newline. */
  predicate IsStartText(t: string) {
    t == "start" || t == "старт" || t == "start\n" || t == "старт\n"
  }

  /** The dialogue's state diagram; `End` is "no dialogue in progress". */
  predicate CanFollow(from: ConvState, to: ConvState) {
    match from
    case End => to == End || to == Name
    case Name => to == Name || to == Email || to == End
    case Email => to == Email || to == Phone || to == End
    case Phone => to == Phone || to == Complete || to == End
    case Complete => to == Complete || to == Name || to == End
  }

  /** The handler of a dialogue state for a plain-text message. */
  function Step(st: ConvState, s: Store, f: Faults, caller: Caller, text: string, token: Token): (r: Transition)
    requires st != End
    ensures CanFollow(st, r.next)
    ensures st == Name ==> r == GetName(s, f, caller, text)
    ensures st == Email ==> r == GetEmail(s, f, caller, text)
    ensures st == Phone ==> r == GetPhone(s, f, caller, text)
    ensures st == Complete ==> r == CompleteRegistration(s, f, caller, text, token)
    ensures r.next != End ==> r.store.users == s.users && r.store.referrals == s.referrals
    ensures r.store.admins == s.admins && r.store.payouts == s.payouts
    ensures Valid(s) ==> Valid(r.store)
  {
    match st
    case Name =>
      var r := GetName(s, f, caller, text);
      ValidIgnoresSessions(s, r.store);
      r
    case Email =>
      var r := GetEmail(s, f, caller, text);
      ValidIgnoresSessions(s, r.store);
      r
    case Phone =>
      var r := GetPhone(s, f, caller, text);
      ValidIgnoresSessions(s, r.store);
      r
    case Complete => CompleteRegistration(s, f, caller, text, token)
  }

  /**
   * The conversation's response to `m` in state `st`: the handler's transition, or `None`
   * when no handler of the conversation takes the update.
   */
  function Deliver(st: ConvState, s: Store, f: Faults, caller: Caller, m: Message, token: Token)
    : (r: Option<Transition>)
    ensures st == End ==>
              (r.Some? <==> (m.Command? && m.name == "start") || (m.Text? && IsStartText(m.text)))
    ensures st != End && m.Text? ==> r == Some(Step(st, s, f, caller, m.text, token))
    ensures st != End && m.Command? ==> (r.Some? <==> m.name == "cancel")
    ensures st != End && m.Command? && m.name == "cancel" ==> r == Some(Cancel(s, f, caller))
    ensures st == End && m.Command? && m.name == "start" ==> r == Some(Start(s, f, caller, m.args, token))
    ensures st == End && m.Text? && IsStartText(m.text) ==> r == Some(Start(s, f, caller, [], token))
    ensures r.Some? ==> CanFollow(st, r.value.next)
    ensures st != End && m.Command? && r.Some? ==>
              r.value.next == End && (Up(f, 0) ==> !HasSession(r.value.store, caller.telegramId))
    ensures st == End && m.Text? && r.Some? ==> r.value.store.referrals == s.referrals
    ensures r.Some? ==> r.value.store.admins == s.admins && r.value.store.payouts == s.payouts
    ensures r.Some? && Valid(s) ==> Valid(r.value.store)
  {
    if st == End then
      if m.Command? && m.name == "start" then Some(Start(s, f, caller, m.args, token))
      else if m.Text? && IsStartText(m.text) then Some(Start(s, f, caller, [], token))
      else None
    else if m.Command? then
      if m.name == "cancel" then Some(Cancel(s, f, caller)) else None
    else
      Some(Step(st, s, f, caller, m.text, token))
  }

  // ---------------------------------------------------------------- a referred registration

  /** What the dialogue has stored once the phone step is done: the code, the name, two skips. */
  function WalkPayload(code: string, ws: seq<string>): Payload
    requires |ws| >= 2
  {
    (map["referral_code" := JStr(code)] + NamePiece(JoinSpaced(ws), ws))["email" := JNull]["phone" := JNull]
  }

  /** The skip token and the answer `да` are read as such, as typed. */
  lemma CanonicalAnswers()
    ensures Strip(SKIP) == SKIP
    ensures Lower(Strip(YES)) == YES
  {
    StripUnpadded(SKIP);
    StripUnpadded(YES);
    LowerFixedPoints(YES);
  }

  /** `/start <code>` from an unregistered caller without a username and without a session. */
  lemma OpenWithCode(s: Store, caller: Caller, code: string, token: Token)
    requires !Registered(s, caller.telegramId) && !HasSession(s, caller.telegramId)
    requires !HasUsername(caller) && code != ""
    ensures var t := Start(s, {}, caller, [code], token);
            && t.next == Name && t.store.(sessions := s.sessions) == s
            && HasSession(t.store, caller.telegramId)
            && FirstSession(t.store, caller.telegramId).data == map["referral_code" := JStr(code)]
  {
    var t := Start(s, {}, caller, [code], token);
    assert t == OpenSession(s, {}, caller.telegramId, Some(code));
  }

  /** A name given as proper words merges the four name fields into the payload. */
  lemma NameStep(s: Store, caller: Caller, ws: seq<string>)
    requires HasSession(s, caller.telegramId) && ProperWords(ws) && |ws| >= 2
    ensures var t := GetName(s, {}, caller, JoinSpaced(ws));
            && t.next == Email && t.store.(sessions := s.sessions) == s
            && HasSession(t.store, caller.telegramId)
            && FirstSession(t.store, caller.telegramId).data
               == FirstSession(s, caller.telegramId).data + NamePiece(JoinSpaced(ws), ws)
  {
    JoinSpacedUnpadded(ws);
    StripUnpadded(JoinSpaced(ws));
    SplitJoinRoundTrip(ws);
  }

  /** The row and widths the confirmation sees for that payload. */
  lemma WalkPayloadFields(code: string, ws: seq<string>, caller: Caller, id: nat, token: Token)
    requires code != "" && |ws| >= 2
    requires forall k :: 0 <= k < |ws| ==> |ws[k]| <= NAME_WIDTH
    requires |UsernameFor(caller)| <= USERNAME_WIDTH
    ensures var data := WalkPayload(code, ws);
            && PendingCode(data) == Some(code)
            && PayloadFits(caller, data)
            && RowFromPayload(id, caller, data, NewCode(token))
               == User(id, caller.telegramId, UsernameFor(caller), Some(ws[1]), Some(ws[0]),
                       Some(if |ws| > 2 then ws[2] else ""), None, None, NewCode(token), 0, true)
  {
    var piece := NamePiece(JoinSpaced(ws), ws);
    var m := map["referral_code" := JStr(code)] + piece;
    assert "referral_code" !in piece.Keys;
    assert m["referral_code"] == JStr(code);
  }

  /**
   * The four steps before the confirmation: `/start <code>`, the name, and an e-mail and a
   * phone message that both read as the skip token.
   */
  lemma WalkToConfirmation(s: Store, caller: Caller, code: string, ws: seq<string>,
                           emailText: string, phoneText: string, token: Token)
    requires !Registered(s, caller.telegramId) && !HasSession(s, caller.telegramId)
    requires !HasUsername(caller) && code != ""
    requires ProperWords(ws) && |ws| >= 2
    requires Strip(emailText) == SKIP && Strip(phoneText) == SKIP
    ensures var t1 := Start(s, {}, caller, [code], token);
            var t2 := GetName(t1.store, {}, caller, JoinSpaced(ws));
            var t3 := GetEmail(t2.store, {}, caller, emailText);
            var t4 := GetPhone(t3.store, {}, caller, phoneText);
            && t1.next == Name && t2.next == Email && t3.next == Phone && t4.next == Complete
            && t4.store.(sessions := s.sessions) == s
            && HasSession(t4.store, caller.telegramId)
            && FirstSession(t4.store, caller.telegramId).data == WalkPayload(code, ws)
  {
    var t1 := Start(s, {}, caller, [code], token);
    OpenWithCode(s, caller, code, token);
    NameStep(t1.store, caller, ws);
  }

  /** The store the confirmation step starts from, with what it needs of it. */
  lemma WalkReady(s: Store, caller: Caller, code: string, ws: seq<string>,
                  emailText: string, phoneText: string, token: Token)
    requires Valid(s) && !Registered(s, caller.telegramId) && !HasSession(s, caller.telegramId)
    requires !HasUsername(caller) && code != ""
    requires ProperWords(ws) && |ws| >= 2
    requires forall k :: 0 <= k < |ws| ==> |ws[k]| <= NAME_WIDTH
    requires |UsernameFor(caller)| <= USERNAME_WIDTH
    requires Strip(emailText) == SKIP && Strip(phoneText) == SKIP
    ensures var t1 := Start(s, {}, caller, [code], token);
            var t2 := GetName(t1.store, {}, caller, JoinSpaced(ws));
            var t3 := GetEmail(t2.store, {}, caller, emailText);
            var s4 := GetPhone(t3.store, {}, caller, phoneText).store;
            && s4.users == s.users && s4.referrals == s.referrals && s4.nextUserId == s.nextUserId
            && Valid(s4) && HasSession(s4, caller.telegramId)
            && PendingCode(FirstSession(s4, caller.telegramId).data) == Some(code)
            && PayloadFits(caller, FirstSession(s4, caller.telegramId).data)
            && RowFromPayload(s.nextUserId, caller, FirstSession(s4, caller.telegramId).data, NewCode(token))
               == User(s.nextUserId, caller.telegramId, UsernameFor(caller), Some(ws[1]), Some(ws[0]),
                       Some(if |ws| > 2 then ws[2] else ""), None, None, NewCode(token), 0, true)
  {
    var t1 := Start(s, {}, caller, [code], token);
    var t2 := GetName(t1.store, {}, caller, JoinSpaced(ws));
    var t3 := GetEmail(t2.store, {}, caller, emailText);
    var s4 := GetPhone(t3.store, {}, caller, phoneText).store;
    WalkToConfirmation(s, caller, code, ws, emailText, phoneText, token);
    ValidIgnoresSessions(s, s4);
    WalkPayloadFields(code, ws, caller, s.nextUserId, token);
  }

  /**
   * Confirming when the payload holds another user's code: the user is created from the
   * payload, exactly one edge links the code's owner to them, and the session goes.
   */
  lemma ConfirmReferred(s: Store, owner: User, caller: Caller, token: Token)
    requires Valid(s) && owner in s.users && owner.telegramId != caller.telegramId
    requires HasSession(s, caller.telegramId)
    requires PendingCode(FirstSession(s, caller.telegramId).data) == Some(owner.referralCode)
    requires !Registered(s, caller.telegramId) && !CodeTaken(s, NewCode(token))
    requires PayloadFits(caller, FirstSession(s, caller.telegramId).data)
    ensures var t := Confirmed(s, {}, caller, token);
            && t.next == End && t.reply == RegistrationDone(NewCode(token))
            && t.store.users
               == s.users + [RowFromPayload(s.nextUserId, caller, FirstSession(s, caller.telegramId).data, NewCode(token))]
            && (exists e :: && t.store.referrals == s.referrals + [e]
                            && e.referrerId == owner.id && e.referredUserId == s.nextUserId
                            && e.codeUsed == owner.referralCode && !e.bonusPaid)
            && !HasSession(t.store, caller.telegramId)
  {
    var t := Confirmed(s, {}, caller, token);
    assert OwnedByOther(s, owner.referralCode, caller.telegramId);
    var newRow := t.store.users[|t.store.users| - 1];
    assert owner in t.store.users && newRow in t.store.users;
    AddedEdgeLinksOwner(s, t.store, owner.referralCode, caller.telegramId, owner, newRow);
  }

  /**
   * A complete referred registration: a user without a Telegram username follows another
   * user's link, gives a name, skips e-mail and phone and confirms. The new
   * user is the next row of `users`, exactly one edge links the code's owner to them, and
   * their session is gone. (`CanonicalAnswers` shows that `-` and `да` meet the conditions
   * on the three typed answers.)
   */
  lemma ReferredRegistration(s: Store, owner: User, caller: Caller, ws: seq<string>,
                             emailText: string, phoneText: string, answer: string, token: Token)
    requires Valid(s) && owner in s.users && owner.telegramId != caller.telegramId
    requires !Registered(s, caller.telegramId) && !HasSession(s, caller.telegramId) && !HasUsername(caller)
    requires ProperWords(ws) && |ws| >= 2
    requires forall k :: 0 <= k < |ws| ==> |ws[k]| <= NAME_WIDTH
    requires |UsernameFor(caller)| <= USERNAME_WIDTH
    requires Strip(emailText) == SKIP && Strip(phoneText) == SKIP && Lower(Strip(answer)) == YES
    requires !CodeTaken(s, NewCode(token))
    ensures var t1 := Start(s, {}, caller, [owner.referralCode], token);
            var t2 := GetName(t1.store, {}, caller, JoinSpaced(ws));
            var t3 := GetEmail(t2.store, {}, caller, emailText);
            var t4 := GetPhone(t3.store, {}, caller, phoneText);
            var t5 := CompleteRegistration(t4.store, {}, caller, answer, token);
            && t5.next == End && t5.reply == RegistrationDone(NewCode(token))
            && t5.store.users
               == s.users + [User(s.nextUserId, caller.telegramId, UsernameFor(caller),
                                  Some(ws[1]), Some(ws[0]), Some(if |ws| > 2 then ws[2] else ""),
                                  None, None, NewCode(token), 0, true)]
            && (exists e :: && t5.store.referrals == s.referrals + [e]
                            && e.referrerId == owner.id && e.referredUserId == s.nextUserId
                            && e.codeUsed == owner.referralCode && !e.bonusPaid)
            && !HasSession(t5.store, caller.telegramId)
  {
    var code := owner.referralCode;
    var t1 := Start(s, {}, caller, [code], token);
    var t2 := GetName(t1.store, {}, caller, JoinSpaced(ws));
    var t3 := GetEmail(t2.store, {}, caller, emailText);
    var s4 := GetPhone(t3.store, {}, caller, phoneText).store;
    WalkReady(s, caller, code, ws, emailText, phoneText, token);
    ConfirmReferred(s4, owner, caller, token);
  }

  // ---------------------------------------------------------------- without a JSONB adapter

  /**
   * The store calls that bind a Python dict to the JSONB column `registration_data`:
   * `create_user_session` and `update_user_session` in `start` (sites 8 and 9), and
   * `update_user_session` in each step handler (site 1). psycopg2 adapts a dict only through
   * `psycopg2.extras.Json` or a registered adapter, and database.py sets up neither, so as
   * written each of these calls raises inside its `try` and returns `None`.
   */
  const DictWritesOfStart: Faults := {8, 9}
  const DictWriteOfStep: Faults := {1}

  /** Without the dict-binding calls, a caller with no session gets none, and the three steps store nothing. */
  lemma UnadaptedWalkStoresNothing(s: Store, caller: Caller, args: seq<string>, nameText: string,
                                   emailText: string, phoneText: string, token: Token)
    requires !Registered(s, caller.telegramId) && !HasSession(s, caller.telegramId) && !HasUsername(caller)
    ensures var t1 := Start(s, DictWritesOfStart, caller, args, token);
            var t2 := GetName(t1.store, DictWriteOfStep, caller, nameText);
            var t3 := GetEmail(t2.store, DictWriteOfStep, caller, emailText);
            GetPhone(t3.store, DictWriteOfStep, caller, phoneText).store == s
  {
    var t1 := Start(s, DictWritesOfStart, caller, args, token);
    assert t1.store == s;
  }

  /** Confirming with no session reads `{}`: the user is created with every personal field empty, and no edge. */
  lemma ConfirmWithoutSession(s: Store, caller: Caller, answer: string, token: Token)
    requires Valid(s) && !Registered(s, caller.telegramId) && !HasSession(s, caller.telegramId)
    requires |UsernameFor(caller)| <= USERNAME_WIDTH
    requires Lower(Strip(answer)) == YES
    requires !CodeTaken(s, NewCode(token))
    ensures var t := CompleteRegistration(s, DictWriteOfStep, caller, answer, token);
            && t.reply == RegistrationDone(NewCode(token))
            && t.store.users
               == s.users + [User(s.nextUserId, caller.telegramId, UsernameFor(caller),
                                  None, None, None, None, None, NewCode(token), 0, true)]
            && t.store.referrals == s.referrals
  {
    var data := ReadPayload(s, true, caller.telegramId);
    assert data == map[];
    assert PendingCode(data).None?;
    assert RowFromPayload(s.nextUserId, caller, data, NewCode(token))
           == User(s.nextUserId, caller.telegramId, UsernameFor(caller), None, None, None, None, None, NewCode(token), 0, true);
  }

  /**
   * The referred registration of `ReferredRegistration` with every dict-binding call
   * failing, as the code is written: no session is ever opened, each step moves on having
   * stored nothing, and `да` creates a user with no name, e-mail or phone and no edge, even
   * though another user's code was followed.
   */
  lemma UnadaptedRegistration(s: Store, owner: User, caller: Caller, nameText: string,
                              emailText: string, phoneText: string, answer: string, token: Token)
    requires Valid(s) && owner in s.users && owner.telegramId != caller.telegramId
    requires !Registered(s, caller.telegramId) && !HasSession(s, caller.telegramId) && !HasUsername(caller)
    requires |UsernameFor(caller)| <= USERNAME_WIDTH
    requires Lower(Strip(answer)) == YES
    requires !CodeTaken(s, NewCode(token))
    ensures var t1 := Start(s, DictWritesOfStart, caller, [owner.referralCode], token);
            var t2 := GetName(t1.store, DictWriteOfStep, caller, nameText);
            var t3 := GetEmail(t2.store, DictWriteOfStep, caller, emailText);
            var t4 := GetPhone(t3.store, DictWriteOfStep, caller, phoneText);
            var t5 := CompleteRegistration(t4.store, DictWriteOfStep, caller, answer, token);
            && t5.reply == RegistrationDone(NewCode(token))
            && t5.store.users
               == s.users + [User(s.nextUserId, caller.telegramId, UsernameFor(caller),
                                  None, None, None, None, None, NewCode(token), 0, true)]
            && t5.store.referrals == s.referrals
  {
    UnadaptedWalkStoresNothing(s, caller, [owner.referralCode], nameText, emailText, phoneText, token);
    ConfirmWithoutSession(s, caller, answer, token);
  }
}

=== FILE: database.dfy ===
/**
 * The persistence layer (`DatabaseManager` in database.py) as operations on an immutable,
 * in-memory `Store`. Tables are sequences of rows in storage order; SERIAL columns are
 * counters. Each operation runs in one connection and takes `up`: whether that connection
 * and its transaction succeed. A failed transaction rolls back, so it leaves the store as
 * it was, and the operation returns its failure value (`None`, `False`, all-zero stats)
 * instead of raising, as every method of the class does.
 */
module Database {

  import opened Base
  import opened ReferralCode

  /** `REFERRAL_BONUS_AMOUNT` of config.py: the amount of one payout. */
  const REFERRAL_BONUS_AMOUNT: int := 100

  /** A `DECIMAL(10,2)` holds at most eight digits before the point; amounts are whole units here. */
  const DECIMAL_LIMIT: int := 100000000

  /** `VARCHAR(n)` widths of the `users` and `referrals` columns. */
  const USERNAME_WIDTH: nat := 100
  const NAME_WIDTH: nat := 100
  const EMAIL_WIDTH: nat := 120
  const PHONE_WIDTH: nat := 20
  const CODE_WIDTH: nat := 50

  /** The values a session payload (JSONB) holds: strings and `null`. */
  datatype JsonValue = JNull | JStr(s: string)

  type Payload = map<string, JsonValue>

  /**
   * `user_sessions.current_step`: the default is the string `'start'`, while the handlers
   * write their integer state constants.
   */
  datatype StepValue = Label(name: string) | Number(n: int)

  /** Python truthiness of a step argument. */
  predicate Truthy(v: StepValue) {
    match v
    case Label(t) => t != ""
    case Number(n) => n != 0
  }

  datatype User = User(
    id: nat,
    telegramId: int,
    username: string,
    firstName: Option<string>,
    lastName: Option<string>,
    patronymic: Option<string>,
    email: Option<string>,
    phone: Option<string>,
    referralCode: string,
    bonusBalance: int,
    isActive: bool)

  datatype Referral = Referral(
    id: nat,
    referrerId: nat,
    referredUserId: nat,
    codeUsed: string,
    discountApplied: bool,
    bonusPaid: bool)

  datatype Payout = Payout(userId: nat, amount: int, status: string, adminTelegramId: int)

  /** A row of `user_sessions`; `telegram_id` carries no uniqueness constraint. */
  datatype Session = Session(telegramId: int, step: StepValue, data: Payload)

  datatype Admin = Admin(telegramId: int, isActive: bool)

  datatype Store = Store(
    users: seq<User>,
    referrals: seq<Referral>,
    payouts: seq<Payout>,
    sessions: seq<Session>,
    admins: seq<Admin>,
    nextUserId: nat,
    nextReferralId: nat)

  datatype Stats = Stats(totalUsers: nat, totalReferrals: nat, unpaidBonuses: nat, totalBonusPaid: nat)

  /** The store after an operation, with the operation's return value. */
  datatype Effect<T> = Effect(store: Store, value: T)

  /** `create_user`'s `(id, referral_code)` on success. */
  datatype NewUser = NewUser(id: nat, referralCode: string)

  const EmptyStore: Store := Store([], [], [], [], [], 1, 1)

  // ---------------------------------------------------------------- facts about a store

  predicate HasId(users: seq<User>, id: nat) {
    exists u :: u in users && u.id == id
  }

  predicate HasUserId(s: Store, id: nat) {
    HasId(s.users, id)
  }

  predicate Registered(s: Store, tid: int) {
    exists u :: u in s.users && u.telegramId == tid
  }

  predicate CodeTaken(s: Store, code: string) {
    exists u :: u in s.users && u.referralCode == code
  }

  predicate HasSession(s: Store, tid: int) {
    exists x :: x in s.sessions && x.telegramId == tid
  }

  /** The session row `SELECT ... WHERE telegram_id = %s` followed by `fetchone()` returns. */
  function FirstSession(s: Store, tid: int): (x: Session)
    requires HasSession(s, tid)
    ensures x in s.sessions && x.telegramId == tid
  {
    FirstWhere(s.sessions, (y: Session) => y.telegramId == tid).value
  }

  /** Every session row of an id other than `tid` is in `t` exactly when it is in `s`. */
  ghost predicate OthersKept(s: Store, t: Store, tid: int) {
    forall x: Session :: x.telegramId != tid ==> (x in t.sessions <==> x in s.sessions)
  }

  lemma OthersKeptTrans(s: Store, t: Store, u: Store, tid: int)
    requires OthersKept(s, t, tid) && OthersKept(t, u, tid)
    ensures OthersKept(s, u, tid)
  {
  }

  /** The schema's constraints, and the shape of the codes `create_user` writes. */
  ghost predicate Valid(s: Store) {
    ValidTables(s.users, s.referrals, s.payouts, s.nextUserId, s.nextReferralId)
  }

  /** The constraints of the tables other than `user_sessions`, which has none. */
  ghost predicate ValidTables(users: seq<User>, referrals: seq<Referral>, payouts: seq<Payout>,
                              nextUserId: nat, nextReferralId: nat) {
    && nextUserId >= 1 && nextReferralId >= 1
    && (forall i :: 0 <= i < |users| ==>
          1 <= users[i].id < nextUserId && IsReferralCode(users[i].referralCode))
    && (forall i, j :: 0 <= i < j < |users| ==> users[i].id < users[j].id)
    && (forall i, j :: 0 <= i < j < |users| ==> users[i].telegramId != users[j].telegramId)
    && (forall i, j :: 0 <= i < j < |users| ==> users[i].referralCode != users[j].referralCode)
    && (forall i :: 0 <= i < |referrals| ==>
          1 <= referrals[i].id < nextReferralId
          && HasId(users, referrals[i].referrerId)
          && HasId(users, referrals[i].referredUserId))
    && (forall i, j :: 0 <= i < j < |referrals| ==> referrals[i].id < referrals[j].id)
    && (forall p :: p in payouts ==> HasId(users, p.userId))
  }

  /** Sessions carry no constraint: changing only them keeps a store valid. */
  lemma ValidIgnoresSessions(s: Store, t: Store)
    requires t.(sessions := s.sessions) == s
    ensures Valid(s) ==> Valid(t)
  {
    assert t.users == s.users && t.referrals == s.referrals && t.payouts == s.payouts;
  }

  lemma EmptyStoreValid()
    ensures Valid(EmptyStore)
  {
  }

  /** UNIQUE(telegram_id) and UNIQUE(referral_code), read as: a key determines its row. */
  lemma UniqueKeys(s: Store, u: User, v: User)
    requires Valid(s) && u in s.users && v in s.users
    ensures u.telegramId == v.telegramId ==> u == v
    ensures u.referralCode == v.referralCode ==> u == v
    ensures u.id == v.id ==> u == v
  {
    var i :| 0 <= i < |s.users| && s.users[i] == u;
    var j :| 0 <= j < |s.users| && s.users[j] == v;
    if i < j {
      assert s.users[i].id < s.users[j].id;
    } else if j < i {
      assert s.users[j].id < s.users[i].id;
    }
  }

  /** `UniqueKeys` for every pair of rows, whenever the store is valid. */
  lemma AllKeysUnique(s: Store)
    ensures Valid(s) ==> forall u, v :: u in s.users && v in s.users && u.telegramId == v.telegramId ==> u == v
    ensures Valid(s) ==> forall u, v :: u in s.users && v in s.users && u.referralCode == v.referralCode ==> u == v
  {
    if Valid(s) {
      forall u, v | u in s.users && v in s.users
        ensures u.telegramId == v.telegramId ==> u == v
        ensures u.referralCode == v.referralCode ==> u == v
      {
        UniqueKeys(s, u, v);
      }
    }
  }

  // ---------------------------------------------------------------- reads

  /** `user_exists`: a failed query reads as "not registered". */
  function UserExists(s: Store, up: bool, tid: int): (r: bool)
    ensures r ==> Registered(s, tid)
    ensures up && Registered(s, tid) ==> r
    ensures !up ==> !r
  {
    up && FirstWhere(s.users, (u: User) => u.telegramId == tid).Some?
  }

  /** `get_user_by_telegram_id`. */
  function GetUserByTelegramId(s: Store, up: bool, tid: int): (r: Option<User>)
    ensures r.Some? ==> up && r.value in s.users && r.value.telegramId == tid
    ensures r.None? ==> !up || !Registered(s, tid)
    ensures Valid(s) && up ==> forall u :: u in s.users && u.telegramId == tid ==> r == Some(u)
  {
    if !up then None
    else
      AllKeysUnique(s);
      FirstWhere(s.users, (u: User) => u.telegramId == tid)
  }

  /** `get_user_by_referral_code`: the owner of `code`, which is unique by the schema. */
  function GetUserByReferralCode(s: Store, up: bool, code: string): (r: Option<User>)
    ensures r.Some? ==> up && r.value in s.users && r.value.referralCode == code
    ensures r.None? ==> !up || !CodeTaken(s, code)
    ensures Valid(s) && up ==> forall u :: u in s.users && u.referralCode == code ==> r == Some(u)
  {
    if !up then None
    else
      AllKeysUnique(s);
      FirstWhere(s.users, (u: User) => u.referralCode == code)
  }

  /** `is_admin`: an active row of `admins` for `tid`. */
  function IsAdmin(s: Store, up: bool, tid: int): (r: bool)
    ensures r <==> up && exists a :: a in s.admins && a.telegramId == tid && a.isActive
  {
    up && FirstWhere(s.admins, (a: Admin) => a.telegramId == tid && a.isActive).Some?
  }

  // ---------------------------------------------------------------- sessions

  /** `get_user_session`: the first session row of `tid`. */
  function GetUserSession(s: Store, up: bool, tid: int): (r: Option<Session>)
    ensures r.Some? ==> up && HasSession(s, tid) && r.value == FirstSession(s, tid)
    ensures r.None? ==> !up || !HasSession(s, tid)
  {
    if up && HasSession(s, tid) then Some(FirstSession(s, tid)) else None
  }

  /** The number of session rows of `tid`. */
  function SessionCount(ss: seq<Session>, tid: int): nat
    decreases |ss|
  {
    if |ss| == 0 then 0
    else (if ss[|ss| - 1].telegramId == tid then 1 else 0) + SessionCount(ss[..|ss| - 1], tid)
  }

  lemma {:induction false} SessionCountPositive(ss: seq<Session>, tid: int)
    ensures SessionCount(ss, tid) > 0 <==> exists x :: x in ss && x.telegramId == tid
    decreases |ss|
  {
    if |ss| > 0 {
      SessionCountPositive(ss[..|ss| - 1], tid);
      assert ss == ss[..|ss| - 1] + [ss[|ss| - 1]];
    }
  }

  /** A fresh session row, as `create_user_session` writes it with its default arguments. */
  const FreshStep: StepValue := Label("start")

  /**
   * `create_user_session(telegram_id)`: inserts a row with step `'start'` and an empty
   * payload, whether or not `tid` already has one.
   */
  function CreateUserSession(s: Store, up: bool, tid: int): (r: Effect<Option<Session>>)
    ensures !up ==> r.store == s && r.value.None?
    ensures up ==> r.value == Some(Session(tid, FreshStep, map[]))
    ensures up ==> r.store.sessions == s.sessions + [Session(tid, FreshStep, map[])]
    ensures OthersKept(s, r.store, tid)
    ensures up ==> SessionCount(r.store.sessions, tid) == SessionCount(s.sessions, tid) + 1
    ensures up ==> HasSession(r.store, tid)
    ensures up && HasSession(s, tid) ==> FirstSession(r.store, tid) == FirstSession(s, tid)
    ensures up && !HasSession(s, tid) ==> FirstSession(r.store, tid) == Session(tid, FreshStep, map[])
    ensures r.store.(sessions := s.sessions) == s
    ensures forall t :: t != tid ==> (HasSession(r.store, t) <==> HasSession(s, t))
  {
    if !up then Effect(s, None)
    else
      var row := Session(tid, FreshStep, map[]);
      var s' := s.(sessions := s.sessions + [row]);
      assert s'.sessions[..|s'.sessions| - 1] == s.sessions;
      FirstAfterAppend(s.sessions, row, tid);
      Effect(s', Some(row))
  }

  lemma FirstAfterAppend(ss: seq<Session>, row: Session, tid: int)
    requires row.telegramId == tid
    ensures var p := (y: Session) => y.telegramId == tid;
            FirstWhere(ss + [row], p) == if FirstWhere(ss, p).Some? then FirstWhere(ss, p) else Some(row)
  {
    var p := (y: Session) => y.telegramId == tid;
    var i := FirstIndex(ss + [row], p);
    var j := FirstIndex(ss, p);
    if j.Some? {
      assert (ss + [row])[j.value] == ss[j.value];
      assert i.value == j.value;
    } else {
      assert (ss + [row])[|ss|] == row;
      assert i.value == |ss|;
    }
  }

  /** Every row of `tid` replaced by `row`; other rows untouched. */
  function ReplaceSessions(ss: seq<Session>, tid: int, row: Session): (r: seq<Session>)
    ensures |r| == |ss|
    ensures forall k :: 0 <= k < |ss| ==> r[k] == if ss[k].telegramId == tid then row else ss[k]
  {
    seq(|ss|, k requires 0 <= k < |ss| => if ss[k].telegramId == tid then row else ss[k])
  }

  /** Rewriting the rows of `tid` keeps how many there are. */
  lemma {:induction false} ReplaceKeepsCount(ss: seq<Session>, tid: int, row: Session)
    requires row.telegramId == tid
    ensures SessionCount(ReplaceSessions(ss, tid, row), tid) == SessionCount(ss, tid)
    decreases |ss|
  {
    if |ss| > 0 {
      var n := |ss|;
      assert ReplaceSessions(ss, tid, row)[..n - 1] == ReplaceSessions(ss[..n - 1], tid, row);
      ReplaceKeepsCount(ss[..n - 1], tid, row);
    }
  }

  /** The step `update_user_session` writes: the argument when truthy, else the stored one. */
  function NewStep(step: Option<StepValue>, current: StepValue): StepValue {
    if step.Some? && Truthy(step.value) then step.value else current
  }

  /**
   * `update_user_session(tid, step, data)`: reads the first row of `tid`, shallow-merges
   * `data` over its payload (an empty `data` is falsy and skipped), and writes the result
   * to every row of `tid`. Returns `None`, and writes nothing, when `tid` has no session.
   */
  function UpdateUserSession(s: Store, up: bool, tid: int, step: Option<StepValue>, data: Payload)
    : (r: Effect<Option<Session>>)
    ensures !up || !HasSession(s, tid) ==> r.store == s && r.value.None?
    ensures up && HasSession(s, tid) ==>
              var before := FirstSession(s, tid);
              && r.value.Some?
              && r.value.value.telegramId == tid
              && r.value.value.step == NewStep(step, before.step)
              && r.value.value.data == before.data + data
              && r.value.value.data.Keys == before.data.Keys + data.Keys
              && (forall k :: k in data ==> r.value.value.data[k] == data[k])
              && (forall k :: k in before.data && k !in data ==> r.value.value.data[k] == before.data[k])
              && r.store == Rewrite(s, tid, r.value.value)
    ensures r.store.(sessions := s.sessions) == s
    ensures HasSession(r.store, tid) <==> HasSession(s, tid)
    ensures SessionCount(r.store.sessions, tid) == SessionCount(s.sessions, tid)
    ensures forall t :: HasSession(r.store, t) <==> HasSession(s, t)
    ensures OthersKept(s, r.store, tid)
  {
    if !up || !HasSession(s, tid) then Effect(s, None)
    else
      var before := FirstSession(s, tid);
      var merged := if |data| > 0 then before.data + data else before.data;
      MergeFacts(before.data, data);
      var row := Session(tid, NewStep(step, before.step), merged);
      Effect(Rewrite(s, tid, row), Some(row))
  }

  /** The `||` merge of a payload: skipping an empty one is the same as merging it. */
  lemma MergeFacts(m: Payload, d: Payload)
    ensures (if |d| > 0 then m + d else m) == m + d
    ensures (m + d).Keys == m.Keys + d.Keys
    ensures forall k :: k in d ==> (m + d)[k] == d[k]
    ensures forall k :: k in m && k !in d ==> (m + d)[k] == m[k]
  {
    if |d| == 0 {
      assert d == map[];
    }
  }

  /**
   * The write of `update_user_session`: every session row of `tid` becomes `row`, which is
   * then the row a read of `tid` finds; every other row stays where it was.
   */
  function Rewrite(s: Store, tid: int, row: Session): (r: Store)
    requires row.telegramId == tid && HasSession(s, tid)
    ensures r.(sessions := s.sessions) == s
    ensures |r.sessions| == |s.sessions|
    ensures forall k :: 0 <= k < |s.sessions| && s.sessions[k].telegramId != tid ==> r.sessions[k] == s.sessions[k]
    ensures forall k :: 0 <= k < |s.sessions| && s.sessions[k].telegramId == tid ==> r.sessions[k] == row
    ensures HasSession(r, tid) && FirstSession(r, tid) == row
    ensures SessionCount(r.sessions, tid) == SessionCount(s.sessions, tid)
    ensures forall t :: HasSession(r, t) <==> HasSession(s, t)
    ensures OthersKept(s, r, tid)
  {
    FirstAfterReplace(s.sessions, tid, row);
    ReplaceKeepsCount(s.sessions, tid, row);
    ReplaceKeepsOwners(s, tid, row);
    ReplaceKeepsOthers(s, tid, row);
    s.(sessions := ReplaceSessions(s.sessions, tid, row))
  }

  /** Rewriting the rows of `tid` with a row of `tid` keeps which ids have a session. */
  lemma ReplaceKeepsOwners(s: Store, tid: int, row: Session)
    requires row.telegramId == tid
    ensures forall t :: HasSession(s.(sessions := ReplaceSessions(s.sessions, tid, row)), t) <==> HasSession(s, t)
  {
    var ss := ReplaceSessions(s.sessions, tid, row);
    var s' := s.(sessions := ss);
    forall t ensures HasSession(s', t) <==> HasSession(s, t) {
      if HasSession(s, t) {
        var x :| x in s.sessions && x.telegramId == t;
        var k :| 0 <= k < |s.sessions| && s.sessions[k] == x;
        assert ss[k].telegramId == t;
      }
      if HasSession(s', t) {
        var x :| x in ss && x.telegramId == t;
        var k :| 0 <= k < |ss| && ss[k] == x;
        assert s.sessions[k].telegramId == t;
      }
    }
  }

  /** Rewriting the rows of `tid` with a row of `tid` keeps every row of another id, and adds none. */
  lemma ReplaceKeepsOthers(s: Store, tid: int, row: Session)
    requires row.telegramId == tid
    ensures OthersKept(s, s.(sessions := ReplaceSessions(s.sessions, tid, row)), tid)
  {
    var ss := s.sessions;
    var rs := ReplaceSessions(ss, tid, row);
    forall x: Session | x.telegramId != tid ensures x in rs <==> x in ss {
      if x in ss {
        var k :| 0 <= k < |ss| && ss[k] == x;
        assert rs[k] == x;
      }
      if x in rs {
        var k :| 0 <= k < |rs| && rs[k] == x;
        assert ss[k] == x;
      }
    }
  }

  lemma FirstAfterReplace(ss: seq<Session>, tid: int, row: Session)
    requires row.telegramId == tid
    requires exists x :: x in ss && x.telegramId == tid
    ensures var p := (y: Session) => y.telegramId == tid;
            FirstWhere(ReplaceSessions(ss, tid, row), p) == Some(row)
  {
    var p := (y: Session) => y.telegramId == tid;
    var j := FirstIndex(ss, p);
    var rs := ReplaceSessions(ss, tid, row);
    var i := FirstIndex(rs, p);
    assert rs[j.value] == row;
    assert i.Some?;
    assert ss[i.value].telegramId == tid;
  }

  /** Every row of `ss` except those of `tid`, in order. */
  function RemoveSessions(ss: seq<Session>, tid: int): (r: seq<Session>)
    ensures forall x :: x in r <==> x in ss && x.telegramId != tid
    decreases |ss|
  {
    if |ss| == 0 then []
    else (if ss[0].telegramId == tid then [] else [ss[0]]) + RemoveSessions(ss[1..], tid)
  }

  /** `delete_user_session`: removes every session row of `tid`. */
  function DeleteUserSession(s: Store, up: bool, tid: int): (r: Store)
    ensures !up ==> r == s
    ensures up ==> !HasSession(r, tid)
    ensures forall x :: x in r.sessions ==> x in s.sessions
    ensures forall x :: x in s.sessions && x.telegramId != tid ==> x in r.sessions
    ensures OthersKept(s, r, tid)
    ensures r.(sessions := s.sessions) == s
    ensures Valid(s) ==> Valid(r)
  {
    if !up then s else s.(sessions := RemoveSessions(s.sessions, tid))
  }

  // ---------------------------------------------------------------- users and referrals

  /** A value fits a `VARCHAR(width)` column (`NULL` always fits). */
  predicate Fits(v: Option<string>, width: nat) {
    v.None? || |v.value| <= width
  }

  /** Every column of a new `users` row fits its declared width. */
  predicate UserRowFits(
    username: string, first: Option<string>, last: Option<string>, patronymic: Option<string>,
    email: Option<string>, phone: Option<string>)
  {
    && |username| <= USERNAME_WIDTH
    && Fits(first, NAME_WIDTH) && Fits(last, NAME_WIDTH) && Fits(patronymic, NAME_WIDTH)
    && Fits(email, EMAIL_WIDTH) && Fits(phone, PHONE_WIDTH)
  }

  /**
   * `create_user`: one INSERT with the code drawn from `token`. It fails on a taken
   * `telegram_id`, a taken code or an over-long column, and there is no second draw.
   */
  function CreateUser(
    s: Store, up: bool, tid: int, username: string,
    first: Option<string>, last: Option<string>, patronymic: Option<string>,
    email: Option<string>, phone: Option<string>, token: Token)
    : (r: Effect<Option<NewUser>>)
    ensures r.value.Some? <==>
              up && !Registered(s, tid) && !CodeTaken(s, NewCode(token))
              && UserRowFits(username, first, last, patronymic, email, phone)
    ensures r.value.None? ==> r.store == s
    ensures r.value.Some? ==>
              && r.value.value.id == s.nextUserId
              && IsReferralCode(r.value.value.referralCode)
              && r.value.value.referralCode == NewCode(token)
              && r.store.users == s.users + [User(r.value.value.id, tid, username, first, last, patronymic,
                                                  email, phone, r.value.value.referralCode, 0, true)]
              && r.store.(users := s.users, nextUserId := s.nextUserId) == s
    ensures Valid(s) && r.value.Some? ==> !HasUserId(s, r.value.value.id)
    ensures Valid(s) ==> Valid(r.store)
  {
    var code := NewCode(token);
    if up && !Registered(s, tid) && !CodeTaken(s, code)
       && UserRowFits(username, first, last, patronymic, email, phone)
    then
      var u := User(s.nextUserId, tid, username, first, last, patronymic, email, phone, code, 0, true);
      var s' := s.(users := s.users + [u], nextUserId := s.nextUserId + 1);
      AppendUserValid(s, u);
      Effect(s', Some(NewUser(u.id, code)))
    else
      Effect(s, None)
  }

  lemma AppendUserValid(s: Store, u: User)
    requires u.id == s.nextUserId && IsReferralCode(u.referralCode)
    requires !Registered(s, u.telegramId) && !CodeTaken(s, u.referralCode)
    ensures Valid(s) ==> !HasUserId(s, u.id)
    ensures Valid(s) ==> Valid(s.(users := s.users + [u], nextUserId := s.nextUserId + 1))
  {
    if !Valid(s) {
      return;
    }
    var s' := s.(users := s.users + [u], nextUserId := s.nextUserId + 1);
    AppendKeepsKeysApart(s, u);
    AppendKeepsIds(s.users, u);
    forall v | v in s.users ensures v.id != u.id {
      var k :| 0 <= k < |s.users| && s.users[k] == v;
    }
    var us := s'.users;
    assert forall i :: 0 <= i < |us| ==> 1 <= us[i].id < s'.nextUserId && IsReferralCode(us[i].referralCode);
  }

  /** Every id present before an append is present after it. */
  lemma AppendKeepsIds(users: seq<User>, u: User)
    ensures forall id :: HasId(users, id) ==> HasId(users + [u], id)
  {
    forall id | HasId(users, id) ensures HasId(users + [u], id) {
      var v :| v in users && v.id == id;
      assert v in users + [u];
    }
  }

  /** The new row's keys differ from every existing row's, and its id is larger. */
  lemma AppendKeepsKeysApart(s: Store, u: User)
    requires Valid(s) && u.id == s.nextUserId
    requires !Registered(s, u.telegramId) && !CodeTaken(s, u.referralCode)
    ensures var us := s.users + [u];
            forall i, j :: 0 <= i < j < |us| ==>
              us[i].id < us[j].id && us[i].telegramId != us[j].telegramId && us[i].referralCode != us[j].referralCode
  {
    var us := s.users + [u];
    forall i, j | 0 <= i < j < |us|
      ensures us[i].id < us[j].id && us[i].telegramId != us[j].telegramId && us[i].referralCode != us[j].referralCode
    {
      if j == |s.users| {
        assert us[i] in s.users;
      } else {
        assert us[i] == s.users[i] && us[j] == s.users[j];
      }
    }
  }

  /**
   * `create_referral`: appends an edge with both flags false. Only the foreign keys and the
   * code's width are checked; an existing edge for the same pair does not stop it.
   */
  function CreateReferral(s: Store, up: bool, referrerId: nat, referredId: nat, code: string)
    : (r: Effect<Option<Referral>>)
    ensures r.value.Some? <==>
              up && HasUserId(s, referrerId) && HasUserId(s, referredId) && |code| <= CODE_WIDTH
    ensures r.value.None? ==> r.store == s
    ensures r.value.Some? ==>
              && r.value.value == Referral(r.value.value.id, referrerId, referredId, code, false, false)
              && r.store.referrals == s.referrals + [r.value.value]
              && r.store.(referrals := s.referrals, nextReferralId := s.nextReferralId) == s
    ensures Valid(s) ==> Valid(r.store)
  {
    if up && HasUserId(s, referrerId) && HasUserId(s, referredId) && |code| <= CODE_WIDTH then
      var e := Referral(s.nextReferralId, referrerId, referredId, code, false, false);
      Effect(s.(referrals := s.referrals + [e], nextReferralId := s.nextReferralId + 1), Some(e))
    else
      Effect(s, None)
  }

  /** A balance a `DECIMAL(10,2)` column can hold. */
  predicate FitsDecimal(x: int) {
    -DECIMAL_LIMIT < x < DECIMAL_LIMIT
  }

  /**
   * `update_bonus_balance`: adds `amount` to the balance of the user with id `userId`
   * and reports whether a row was updated.
   */
  function UpdateBonusBalance(s: Store, up: bool, userId: nat, amount: int): (r: Effect<bool>)
    ensures !r.value ==> r.store == s
    ensures Valid(s) ==>
              (r.value <==> up && exists u :: u in s.users && u.id == userId && FitsDecimal(u.bonusBalance + amount))
    ensures |r.store.users| == |s.users|
    ensures forall k :: 0 <= k < |s.users| && s.users[k].id != userId ==> r.store.users[k] == s.users[k]
    ensures r.value ==> forall k :: 0 <= k < |s.users| && s.users[k].id == userId ==>
              r.store.users[k] == s.users[k].(bonusBalance := s.users[k].bonusBalance + amount)
    ensures r.store.(users := s.users) == s
    ensures Valid(s) ==> Valid(r.store)
  {
    if !up then Effect(s, false)
    else
      match FirstWhere(s.users, (u: User) => u.id == userId)
      case None => Effect(s, false)
      case Some(u) =>
        if !FitsDecimal(u.bonusBalance + amount) then Effect(s, false)
        else
          var us := seq(|s.users|, k requires 0 <= k < |s.users| =>
                        if s.users[k].id == userId
                        then s.users[k].(bonusBalance := s.users[k].bonusBalance + amount)
                        else s.users[k]);
          var s' := s.(users := us);
          BalanceChangeValid(s, us);
          Effect(s', true)
  }

  /** Changing balances only keeps every constraint. */
  lemma BalanceChangeValid(s: Store, us: seq<User>)
    requires |us| == |s.users|
    requires forall k :: 0 <= k < |us| ==>
               && us[k].id == s.users[k].id && us[k].telegramId == s.users[k].telegramId
               && us[k].referralCode == s.users[k].referralCode
    ensures Valid(s) ==> Valid(s.(users := us))
  {
    forall id | HasId(s.users, id) ensures HasId(us, id) {
      var v :| v in s.users && v.id == id;
      var k :| 0 <= k < |s.users| && s.users[k] == v;
      assert us[k] in us;
    }
  }

  /** Flipping flags and recording a payout to an existing user keeps every constraint. */
  lemma MarkPaidValid(s: Store, referralId: nat, beneficiary: nat, adminTid: int)
    requires HasUserId(s, beneficiary)
    ensures Valid(s) ==> Valid(s.(referrals := MarkPaid(s.referrals, referralId),
                                  payouts := s.payouts + [Payout(beneficiary, REFERRAL_BONUS_AMOUNT, "paid", adminTid)]))
  {
  }

  /** Every edge with id `referralId` marked paid. */
  function MarkPaid(rs: seq<Referral>, referralId: nat): (r: seq<Referral>)
    ensures |r| == |rs|
    ensures forall k :: 0 <= k < |rs| ==> r[k] == if rs[k].id == referralId then rs[k].(bonusPaid := true) else rs[k]
  {
    seq(|rs|, k requires 0 <= k < |rs| => if rs[k].id == referralId then rs[k].(bonusPaid := true) else rs[k])
  }

  /**
   * `mark_bonus_paid`: sets `bonus_paid` on the edge and records one payout of
   * `REFERRAL_BONUS_AMOUNT` to its referrer. It does not look at the flag first and does
   * not touch any balance.
   */
  function MarkBonusPaid(s: Store, up: bool, referralId: nat, adminTid: int): (r: Effect<bool>)
    ensures !r.value ==> r.store == s
    ensures Valid(s) ==> (r.value <==> up && exists e :: e in s.referrals && e.id == referralId)
    ensures r.value ==>
              exists e :: e in s.referrals && e.id == referralId
                && r.store.payouts == s.payouts + [Payout(e.referrerId, REFERRAL_BONUS_AMOUNT, "paid", adminTid)]
    ensures r.value ==> |r.store.referrals| == |s.referrals|
    ensures r.value ==> forall k :: 0 <= k < |s.referrals| ==>
              r.store.referrals[k] == if s.referrals[k].id == referralId
                                      then s.referrals[k].(bonusPaid := true) else s.referrals[k]
    ensures r.store.(referrals := s.referrals, payouts := s.payouts) == s
    ensures Valid(s) ==> Valid(r.store)
  {
    if !up then Effect(s, false)
    else
      match FirstWhere(s.referrals, (e: Referral) => e.id == referralId)
      case None => Effect(s, false)
      case Some(e) =>
        if !HasUserId(s, e.referrerId) then Effect(s, false)
        else
          var s' := s.(referrals := MarkPaid(s.referrals, referralId),
                       payouts := s.payouts + [Payout(e.referrerId, REFERRAL_BONUS_AMOUNT, "paid", adminTid)]);
          MarkPaidValid(s, referralId, e.referrerId, adminTid);
          Effect(s', true)
  }

  /** On a valid store, paying an existing edge pays its referrer and keeps the edge, now paid. */
  lemma MarkBonusPaidPaysReferrer(s: Store, e: Referral, adminTid: int)
    requires Valid(s) && e in s.referrals
    ensures var r := MarkBonusPaid(s, true, e.id, adminTid);
            && r.value && Valid(r.store) && e.(bonusPaid := true) in r.store.referrals
            && r.store.payouts == s.payouts + [Payout(e.referrerId, REFERRAL_BONUS_AMOUNT, "paid", adminTid)]
  {
    var r := MarkBonusPaid(s, true, e.id, adminTid);
    var k :| 0 <= k < |s.referrals| && s.referrals[k] == e;
    assert r.store.referrals[k] == e.(bonusPaid := true);
    forall x | x in s.referrals && x.id == e.id ensures x == e {
      var j :| 0 <= j < |s.referrals| && s.referrals[j] == x;
    }
  }

  /**
   * `mark_bonus_paid` called twice for the same edge succeeds twice and records two payouts
   * to the same referrer: nothing stops a bonus from being paid again.
   */
  lemma MarkBonusPaidTwice(s: Store, e: Referral, adminTid: int)
    requires Valid(s) && e in s.referrals
    ensures var r1 := MarkBonusPaid(s, true, e.id, adminTid);
            var r2 := MarkBonusPaid(r1.store, true, e.id, adminTid);
            && r1.value && r2.value
            && r2.store.payouts
               == s.payouts + [Payout(e.referrerId, REFERRAL_BONUS_AMOUNT, "paid", adminTid)]
                            + [Payout(e.referrerId, REFERRAL_BONUS_AMOUNT, "paid", adminTid)]
  {
    var r1 := MarkBonusPaid(s, true, e.id, adminTid);
    MarkBonusPaidPaysReferrer(s, e, adminTid);
    var paid := e.(bonusPaid := true);
    MarkBonusPaidPaysReferrer(r1.store, paid, adminTid);
  }

  // ---------------------------------------------------------------- statistics

  /** Number of edges whose `bonus_paid` flag equals `paid`. */
  function CountPaid(rs: seq<Referral>, paid: bool): nat
    decreases |rs|
  {
    if |rs| == 0 then 0
    else (if rs[0].bonusPaid == paid then 1 else 0) + CountPaid(rs[1..], paid)
  }

  /** The positions of the edges whose `bonus_paid` flag equals `paid`: the rows `WHERE bonus_paid = paid`. */
  function PaidAt(rs: seq<Referral>, paid: bool): set<int> {
    set i | 0 <= i < |rs| && rs[i].bonusPaid == paid
  }

  lemma {:induction false} CountPaidAppend(a: seq<Referral>, b: seq<Referral>, paid: bool)
    ensures CountPaid(a + b, paid) == CountPaid(a, paid) + CountPaid(b, paid)
    decreases |a|
  {
    if |a| > 0 {
      assert (a + b)[1..] == a[1..] + b;
      CountPaidAppend(a[1..], b, paid);
    } else {
      assert a + b == b;
    }
  }

  /** The running count is the size of the set of matching rows, `COUNT(*) ... WHERE bonus_paid = paid`. */
  lemma {:induction false} CountPaidCounts(rs: seq<Referral>, paid: bool)
    ensures CountPaid(rs, paid) == |PaidAt(rs, paid)|
    decreases |rs|
  {
    if |rs| == 0 {
      assert PaidAt(rs, paid) == {};
    } else {
      var n := |rs|;
      var init := rs[..n - 1];
      assert rs == init + [rs[n - 1]];
      CountPaidAppend(init, [rs[n - 1]], paid);
      CountPaidCounts(init, paid);
      if rs[n - 1].bonusPaid == paid {
        assert PaidAt(rs, paid) == PaidAt(init, paid) + {n - 1};
      } else {
        assert PaidAt(rs, paid) == PaidAt(init, paid);
      }
    }
  }

  lemma {:induction false} PaidPartition(rs: seq<Referral>)
    ensures CountPaid(rs, false) + CountPaid(rs, true) == |rs|
    decreases |rs|
  {
    if |rs| > 0 {
      PaidPartition(rs[1..]);
    }
  }

  /** Marking the edges with id `referralId` paid, when exactly the edge at `k` has that id. */
  lemma {:induction false} MarkPaidCount(rs: seq<Referral>, referralId: nat, k: nat)
    requires k < |rs| && rs[k].id == referralId
    requires forall i, j :: 0 <= i < j < |rs| ==> rs[i].id < rs[j].id
    ensures CountPaid(MarkPaid(rs, referralId), true) == CountPaid(rs, true) + (if rs[k].bonusPaid then 0 else 1)
    decreases |rs|
  {
    var ms := MarkPaid(rs, referralId);
    assert ms[1..] == MarkPaid(rs[1..], referralId);
    if k == 0 {
      assert MarkPaid(rs[1..], referralId) == rs[1..];
    } else {
      MarkPaidCount(rs[1..], referralId, k - 1);
    }
  }

  /**
   * Paying the bonus of an unpaid edge moves it from the unpaid count to the paid count;
   * paying an edge already paid leaves both counts as they were.
   */
  lemma MarkBonusPaidStats(s: Store, e: Referral, adminTid: int)
    requires Valid(s) && e in s.referrals
    ensures var before := GetAdminStats(s, true);
            var after := GetAdminStats(MarkBonusPaid(s, true, e.id, adminTid).store, true);
            && after.totalUsers == before.totalUsers && after.totalReferrals == before.totalReferrals
            && after.totalBonusPaid == before.totalBonusPaid + (if e.bonusPaid then 0 else 1)
            && after.unpaidBonuses + (if e.bonusPaid then 0 else 1) == before.unpaidBonuses
  {
    var k :| 0 <= k < |s.referrals| && s.referrals[k] == e;
    var r := MarkBonusPaid(s, true, e.id, adminTid);
    assert r.value;
    assert r.store.referrals == MarkPaid(s.referrals, e.id);
    MarkPaidCount(s.referrals, e.id, k);
    PaidPartition(s.referrals);
    PaidPartition(r.store.referrals);
  }

  /** `get_admin_stats`: the four counts, or all zero when the queries fail. */
  function GetAdminStats(s: Store, up: bool): (r: Stats)
    ensures !up ==> r == Stats(0, 0, 0, 0)
    ensures up ==> r.totalUsers == |s.users| && r.totalReferrals == |s.referrals|
    ensures up ==> r.totalBonusPaid == |PaidAt(s.referrals, true)| && r.unpaidBonuses == |PaidAt(s.referrals, false)|
    ensures r.unpaidBonuses + r.totalBonusPaid == r.totalReferrals
  {
    if !up then Stats(0, 0, 0, 0)
    else
      PaidPartition(s.referrals);
      CountPaidCounts(s.referrals, true);
      CountPaidCounts(s.referrals, false);
      Stats(|s.users|, |s.referrals|, CountPaid(s.referrals, false), CountPaid(s.referrals, true))
  }
}

=== FILE: email.dfy ===
/**
 * The e-mail check of the registration dialogue: the pattern
 * `^[a-zA-Z0-9._%+-]+@[a-zA-Z0-9.-]+\.[a-zA-Z]{2,}$` used with `re.match`,
 * given here twice: as the regular language it denotes (`MatchesPattern`) and as a
 * hand-written recogniser (`IsEmail`), with a proof that the two agree.
 */
module EmailPattern {

  import opened Base
  import opened PyText

  /** The class `[a-zA-Z0-9._%+-]` of the local part. */
  predicate IsLocalChar(c: char) {
    IsAsciiLetter(c) || IsDigit(c) || c == '.' || c == '_' || c == '%' || c == '+' || c == '-'
  }

  /** The class `[a-zA-Z0-9.-]` of the domain. */
  predicate IsDomainChar(c: char) {
    IsAsciiLetter(c) || IsDigit(c) || c == '.' || c == '-'
  }

  predicate AllLocal(s: string) {
    forall k :: 0 <= k < |s| ==> IsLocalChar(s[k])
  }

  predicate AllDomain(s: string) {
    forall k :: 0 <= k < |s| ==> IsDomainChar(s[k])
  }

  predicate AllLetters(s: string) {
    forall k :: 0 <= k < |s| ==> IsAsciiLetter(s[k])
  }

  // ---------------------------------------------------------------- the regular language

  /**
   * `s` splits as local `@` domain `.` suffix with the `@` at `at` and the `.` at `dot`:
   * one or more local characters, one or more domain characters, two or more letters.
   */
  predicate PatternAt(s: string, at: nat, dot: nat) {
    && 0 < at && at + 1 < dot && dot + 3 <= |s|
    && s[at] == '@' && s[dot] == '.'
    && AllLocal(s[..at])
    && AllDomain(s[at + 1..dot])
    && AllLetters(s[dot + 1..])
  }

  /** Membership in the language of the pattern between `^` and `$`. */
  ghost predicate MatchesPattern(s: string) {
    exists at: nat, dot: nat :: PatternAt(s, at, dot)
  }

  /** `re.match` with a final `$` also succeeds when one `\n` follows the matched text. */
  ghost predicate RegexMatches(s: string) {
    || MatchesPattern(s)
    || (|s| > 0 && s[|s| - 1] == '\n' && MatchesPattern(s[..|s| - 1]))
  }

  // ---------------------------------------------------------------- the recogniser

  /** Index of the first `c` in `s`, or `|s|` when there is none. */
  function IndexOf(s: string, c: char): (i: nat)
    ensures i <= |s|
    ensures i < |s| ==> s[i] == c
    ensures forall j :: 0 <= j < i ==> s[j] != c
    decreases |s|
  {
    if |s| == 0 then 0
    else if s[0] == c then 0
    else 1 + IndexOf(s[1..], c)
  }

  /** Index of the last `c` in `s`, if any. */
  function LastIndexOf(s: string, c: char): (r: Option<nat>)
    ensures r.Some? ==> r.value < |s| && s[r.value] == c
    ensures r.Some? ==> forall j :: r.value < j < |s| ==> s[j] != c
    ensures r.None? ==> forall j :: 0 <= j < |s| ==> s[j] != c
    decreases |s|
  {
    if |s| == 0 then None
    else if s[|s| - 1] == c then Some(|s| - 1)
    else LastIndexOf(s[..|s| - 1], c)
  }

  /** A domain over `[a-zA-Z0-9.-]` whose last `.` has a non-empty prefix and a suffix of 2+ letters. */
  predicate ValidDomain(d: string) {
    && AllDomain(d)
    && match LastIndexOf(d, '.')
       case None => false
       case Some(k) => 0 < k && k + 3 <= |d| && AllLetters(d[k + 1..])
  }

  /** Exactly one `@`, a non-empty local part before it and a valid domain after it. */
  predicate IsEmail(s: string) {
    var at := IndexOf(s, '@');
    && multiset(s)['@'] == 1
    && 0 < at < |s|
    && AllLocal(s[..at])
    && ValidDomain(s[at + 1..])
  }

  lemma RecognizedMatches(s: string)
    requires IsEmail(s)
    ensures MatchesPattern(s)
  {
    var at := IndexOf(s, '@');
    var d := s[at + 1..];
    var k := LastIndexOf(d, '.').value;
    var dot := at + 1 + k;
    assert s[at + 1..dot] == d[..k];
    assert s[dot + 1..] == d[k + 1..];
    assert PatternAt(s, at, dot);
  }

  /** A string whose only `@` is at `at` has one `@`, and `IndexOf` finds it. */
  lemma OnlyAt(s: string, at: nat)
    requires at < |s| && s[at] == '@'
    requires forall j :: 0 <= j < |s| && j != at ==> s[j] != '@'
    ensures multiset(s)['@'] == 1
    ensures IndexOf(s, '@') == at
  {
    var local, domain := s[..at], s[at + 1..];
    assert s == local + ['@'] + domain;
    assert '@' !in local by {
      forall j | 0 <= j < |local| ensures local[j] != '@' {
        assert local[j] == s[j];
      }
    }
    assert '@' !in domain by {
      forall j | 0 <= j < |domain| ensures domain[j] != '@' {
        assert domain[j] == s[at + 1 + j];
      }
    }
    assert multiset(s) == multiset(local) + multiset{'@'} + multiset(domain);
  }

  /** In a match, the `@` at `at` is the only one. */
  lemma PatternHasOneAt(s: string, at: nat, dot: nat)
    requires PatternAt(s, at, dot)
    ensures forall j :: 0 <= j < |s| && j != at ==> s[j] != '@'
  {
    forall j | 0 <= j < |s| && j != at ensures s[j] != '@' {
      if j < at {
        assert IsLocalChar(s[..at][j]);
      } else if j < dot {
        assert IsDomainChar(s[at + 1..dot][j - at - 1]);
      } else if j > dot {
        assert IsAsciiLetter(s[dot + 1..][j - dot - 1]);
      }
    }
  }

  lemma MatchesRecognized(s: string, at: nat, dot: nat)
    requires PatternAt(s, at, dot)
    ensures IsEmail(s)
  {
    PatternHasOneAt(s, at, dot);
    OnlyAt(s, at);
    var domain := s[at + 1..];
    var k := dot - at - 1;
    assert domain[..k] == s[at + 1..dot];
    assert domain[k + 1..] == s[dot + 1..];
    assert AllDomain(domain) by {
      forall j | 0 <= j < |domain| ensures IsDomainChar(domain[j]) {
        if j < k {
          assert domain[j] == s[at + 1..dot][j];
        } else if j > k {
          assert domain[j] == s[dot + 1..][j - k - 1];
        }
      }
    }
    assert forall j :: k < j < |domain| ==> domain[j] != '.' by {
      forall j | k < j < |domain| ensures domain[j] != '.' {
        assert domain[j] == s[dot + 1..][j - k - 1];
      }
    }
    assert LastIndexOf(domain, '.') == Some(k);
  }

  /** The recogniser accepts exactly the strings in the pattern's language. */
  lemma RecognizerMatchesPattern(s: string)
    ensures IsEmail(s) <==> MatchesPattern(s)
  {
    if IsEmail(s) {
      RecognizedMatches(s);
    }
    if MatchesPattern(s) {
      var at: nat, dot: nat :| PatternAt(s, at, dot);
      MatchesRecognized(s, at, dot);
    }
  }

  /** On stripped input the `\n` allowance of `$` never applies, so the regex and the recogniser agree. */
  lemma StrippedInputMatchesIffRecognized(s: string)
    requires Unpadded(s)
    ensures RegexMatches(s) <==> IsEmail(s)
  {
    RecognizerMatchesPattern(s);
    if |s| > 0 {
      assert IsSpace('\n');
    }
  }

  /** Every accepted address has exactly one `@`, and no whitespace at all. */
  lemma AcceptedHasOneAtAndNoSpace(s: string)
    requires IsEmail(s)
    ensures multiset(s)['@'] == 1
    ensures NoSpace(s)
  {
    var at := IndexOf(s, '@');
    var d := s[at + 1..];
    forall j | 0 <= j < |s| ensures !IsSpace(s[j]) {
      if j < at {
        assert IsLocalChar(s[..at][j]);
      } else if j > at {
        assert IsDomainChar(d[j - at - 1]);
      }
    }
  }
}

=== FILE: handlers.dfy ===
/**
 * The registration conversation of handlers.py and its referral attribution, as pure
 * transitions: each handler takes the store and the incoming message and returns the
 * next conversation state, the new store and the kind of reply it sends.
 *
 * Store failures are nondeterministic: a handler takes `f`, the set of its store CALL
 * SITES whose call fails (numbered per handler in the comments below). A failed call
 * behaves as the corresponding `Database` operation with `up == false`.
 */
module Handlers {

  import opened Base
  import opened PyText
  import opened ReferralCode
  import opened Database
  import EmailPattern

  /** `START, NAME, EMAIL, PHONE, COMPLETE = range(5)`, plus `ConversationHandler.END`. */
  datatype ConvState = Name | Email | Phone | Complete | End

  const START: int := 0

  /** The integer each state stands for; `END` is -1. */
  function StateCode(st: ConvState): int {
    match st
    case Name => 1
    case Email => 2
    case Phone => 3
    case Complete => 4
    case End => -1
  }

  /** The Telegram user a message comes from. */
  datatype Caller = Caller(telegramId: int, username: Option<string>)

  /** `user.username` is truthy. */
  predicate HasUsername(c: Caller) {
    c.username.Some? && c.username.value != ""
  }

  /** The skip token of the e-mail and phone steps, and the two confirmation answers. */
  const SKIP: string := "-"
  const YES: string := "да"
  const NO: string := "нет"

  /** Minimum number of digits of an accepted phone number. */
  const MIN_PHONE_DIGITS: nat := 10

  const NOT_GIVEN_NAME: string := "Не указано"
  const NOT_GIVEN: string := "Не указан"

  /** The confirmation summary shown after the phone step (lines 245-257). */
  datatype Summary = Summary(fullName: string, email: string, phone: string, handle: string, pendingCode: Option<string>)

  /** The kind of message a handler sends back. */
  datatype Reply =
    | WelcomeBack
    | ReferralApplied(referrer: string)
    | InvalidReferralCode
    | ReferralError
    | AutoRegistered
    | AskFullName
    | NameRejected
    | AskEmail
    | EmailRejected
    | AskPhone
    | PhoneRejected
    | Confirm(summary: Summary)
    | StartOver
    | RegistrationDone(referralCode: string)
    | RegistrationFailed
    | AskYesNo
    | Cancelled

  datatype Transition = Transition(next: ConvState, store: Store, reply: Reply)

  /** Call sites of one handler invocation whose store call fails. */
  type Faults = set<nat>

  predicate Up(f: Faults, site: nat) {
    site !in f
  }

  // ---------------------------------------------------------------- payload access

  /** `registration_data.get(key)` passed on as a column value: absent and `null` are `None`. */
  function Field(data: Payload, key: string): (r: Option<string>)
    ensures r.Some? <==> key in data && data[key].JStr?
    ensures r.Some? ==> data[key] == JStr(r.value)
  {
    if key in data && data[key].JStr? then Some(data[key].s) else None
  }

  /** `registration_data.get('referral_code')` when truthy: the pending code. */
  function PendingCode(data: Payload): (r: Option<string>)
    ensures r.Some? <==> "referral_code" in data && data["referral_code"].JStr? && data["referral_code"].s != ""
    ensures r.Some? ==> data["referral_code"] == JStr(r.value)
  {
    if "referral_code" in data && data["referral_code"].JStr? && data["referral_code"].s != ""
    then Some(data["referral_code"].s)
    else None
  }

  /** The payload a handler reads: the first session's, or `{}` when the read fails or finds none. */
  function ReadPayload(s: Store, up: bool, tid: int): (r: Payload)
    ensures up && HasSession(s, tid) ==> r == FirstSession(s, tid).data
    ensures !up || !HasSession(s, tid) ==> r == map[]
  {
    match GetUserSession(s, up, tid)
    case Some(x) => x.data
    case None => map[]
  }

  /** Merging a payload that already starts from the stored one changes nothing extra. */
  lemma MergeOverSelf(m: Payload, p: Payload)
    ensures m + (m + p) == m + p
    ensures m + (map[] + p) == m + p
  {
  }

  /** Merging a one-key payload is a single-key update. */
  lemma MergeOneKey(m: Payload, k: string, v: JsonValue)
    ensures m + map[k := v] == m[k := v]
  {
  }

  // ---------------------------------------------------------------- attribution

  /** The rule at lines 93-95, 144-148 and 307-309: the code has an owner, and it is someone else. */
  predicate Redeemable(referrer: Option<User>, tid: int) {
    referrer.Some? && referrer.value.telegramId != tid
  }

  /** `e` links the owner of `code`, who is not `tid`, to the user of `tid`, with both flags unset. */
  ghost predicate RedeemedEdge(s: Store, e: Referral, code: string, tid: int) {
    && e.codeUsed == code && !e.bonusPaid && !e.discountApplied
    && (exists u :: u in s.users && u.id == e.referrerId && u.referralCode == code && u.telegramId != tid)
    && (exists v :: v in s.users && v.id == e.referredUserId && v.telegramId == tid)
  }

  /** The referrals table is as before, or has exactly one new edge, redeemed from `code` by `tid`. */
  ghost predicate AttributedAtMostOnce(before: Store, after: Store, code: string, tid: int) {
    || after.referrals == before.referrals
    || (exists e :: after.referrals == before.referrals + [e] && RedeemedEdge(after, e, code, tid))
  }

  /**
   * Attribution between two stores carries over to a store before them with the same
   * referrals and to a store after them with the same users and referrals.
   */
  lemma AttributionCarriesOver(before: Store, mid: Store, after: Store, final: Store, code: string, tid: int)
    requires mid.referrals == before.referrals && AttributedAtMostOnce(mid, after, code, tid)
    requires final.users == after.users && final.referrals == after.referrals
    ensures AttributedAtMostOnce(before, final, code, tid)
  {
    if after.referrals != mid.referrals {
      var e :| after.referrals == mid.referrals + [e] && RedeemedEdge(after, e, code, tid);
      assert RedeemedEdge(final, e, code, tid);
    }
  }

  /** Someone other than `tid` owns `code`. */
  predicate OwnedByOther(s: Store, code: string, tid: int) {
    exists u :: u in s.users && u.referralCode == code && u.telegramId != tid
  }

  /**
   * Lines 93-95 and 305-309: look `code` up (the first call) and, when redeemable, create
   * an edge from its owner to the user `referredId` (the second call).
   */
  function Attribute(s: Store, lookupUp: bool, insertUp: bool, code: string, tid: int, referredId: nat)
    : (r: Store)
    requires exists v :: v in s.users && v.id == referredId && v.telegramId == tid
    ensures AttributedAtMostOnce(s, r, code, tid)
    ensures r.(referrals := s.referrals, nextReferralId := s.nextReferralId) == s
    ensures Valid(s) ==> Valid(r)
    ensures Valid(s) && lookupUp && insertUp && OwnedByOther(s, code, tid) ==>
              |r.referrals| == |s.referrals| + 1
    ensures !OwnedByOther(s, code, tid) ==> r == s
  {
    var referrer := GetUserByReferralCode(s, lookupUp, code);
    if Redeemable(referrer, tid) then
      var e := CreateReferral(s, insertUp, referrer.value.id, referredId, code);
      assert e.value.Some? ==> RedeemedEdge(e.store, e.value.value, code, tid) by {
        if e.value.Some? {
          assert referrer.value in e.store.users;
          var v :| v in s.users && v.id == referredId && v.telegramId == tid;
          assert v in e.store.users;
        }
      }
      e.store
    else
      s
  }

  /** On any of the three paths a code owned by the caller never yields an edge. */
  lemma NoSelfReferral(before: Store, after: Store, code: string, tid: int, owner: User)
    requires AttributedAtMostOnce(before, after, code, tid)
    requires Valid(after) && owner in after.users && owner.referralCode == code && owner.telegramId == tid
    ensures after.referrals == before.referrals
  {
    AllKeysUnique(after);
  }

  /**
   * When attribution did add an edge, in a valid store that edge runs from the one owner
   * of the code to the one user of `tid`.
   */
  lemma AddedEdgeLinksOwner(before: Store, after: Store, code: string, tid: int, owner: User, referred: User)
    requires AttributedAtMostOnce(before, after, code, tid) && |after.referrals| == |before.referrals| + 1
    requires Valid(after) && owner in after.users && owner.referralCode == code
    requires referred in after.users && referred.telegramId == tid
    ensures exists e :: && after.referrals == before.referrals + [e]
                        && e.referrerId == owner.id && e.referredUserId == referred.id
                        && e.codeUsed == code && !e.bonusPaid && !e.discountApplied
  {
    var e :| after.referrals == before.referrals + [e] && RedeemedEdge(after, e, code, tid);
    var u :| u in after.users && u.id == e.referrerId && u.referralCode == code && u.telegramId != tid;
    var v :| v in after.users && v.id == e.referredUserId && v.telegramId == tid;
    UniqueKeys(after, u, owner);
    UniqueKeys(after, v, referred);
  }

  // ---------------------------------------------------------------- /start

  /** `context.args[0]` when it is present and truthy. */
  function StartCode(args: seq<string>): (r: Option<string>)
    ensures r.Some? <==> |args| > 0 && args[0] != ""
    ensures r.Some? ==> r.value == args[0]
  {
    if |args| > 0 && args[0] != "" then Some(args[0]) else None
  }

  /**
   * `process_referral_code` (lines 140-159) for a registered caller. Call sites: 1 looks the
   * code up, 2 fetches the caller's own row, 3 inserts the edge.
   */
  function ProcessReferralCode(s: Store, f: Faults, code: string, tid: int): (r: Effect<Reply>)
    ensures AttributedAtMostOnce(s, r.store, code, tid)
    ensures r.store.(referrals := s.referrals, nextReferralId := s.nextReferralId) == s
    ensures Valid(s) ==> Valid(r.store)
    ensures Valid(s) && Up(f, 1) ==> (r.value == InvalidReferralCode <==> !OwnedByOther(s, code, tid))
    ensures r.value.InvalidReferralCode? ==> r.store == s
    ensures Valid(s) && Registered(s, tid) && Up(f, 1) && Up(f, 2) && Up(f, 3) && OwnedByOther(s, code, tid) ==>
              |r.store.referrals| == |s.referrals| + 1
              && r.value == ReferralApplied(GetUserByReferralCode(s, true, code).value.username)
  {
    var referrer := GetUserByReferralCode(s, Up(f, 1), code);
    if Redeemable(referrer, tid) then
      match GetUserByTelegramId(s, Up(f, 2), tid)
      case None => Effect(s, ReferralError)
      case Some(me) =>
        Effect(Attribute(s, Up(f, 1), Up(f, 3), code, tid, me.id), ReferralApplied(referrer.value.username))
    else
      Effect(s, InvalidReferralCode)
  }

  /**
   * Lines 79-114: a caller with a Telegram username is registered at once, with no name,
   * e-mail or phone. Call sites: 4 creates the user, 5 looks the code up, 6 inserts the edge.
   * The reply announces success whether or not the user was created.
   */
  function AutoRegister(s: Store, f: Faults, caller: Caller, code: Option<string>, token: Token): (r: Transition)
    requires HasUsername(caller)
    ensures r.next == End && r.reply == AutoRegistered
    ensures r.store.sessions == s.sessions && r.store.payouts == s.payouts && r.store.admins == s.admins
    ensures r.store.users == s.users
            || r.store.users == s.users + [User(s.nextUserId, caller.telegramId, caller.username.value,
                                                None, None, None, None, None, NewCode(token), 0, true)]
    ensures code.Some? ==> AttributedAtMostOnce(s, r.store, code.value, caller.telegramId)
    ensures code.None? ==> r.store.referrals == s.referrals
    ensures r.store.users != s.users <==>
              Up(f, 4) && !Registered(s, caller.telegramId) && !CodeTaken(s, NewCode(token))
              && |caller.username.value| <= USERNAME_WIDTH
    ensures Valid(s) && r.store.users != s.users && code.Some? && Up(f, 5) && Up(f, 6)
            && OwnedByOther(s, code.value, caller.telegramId) ==>
              |r.store.referrals| == |s.referrals| + 1
    ensures Valid(s) ==> Valid(r.store)
  {
    var tid := caller.telegramId;
    var created := CreateUser(s, Up(f, 4), tid, caller.username.value, None, None, None, None, None, token);
    var s1 := created.store;
    if code.Some? && created.value.Some? && created.value.value.id != 0 then
      var id := created.value.value.id;
      assert s1.users[|s1.users| - 1] in s1.users;
      assert OwnedByOther(s, code.value, tid) ==> OwnedByOther(s1, code.value, tid) by {
        if OwnedByOther(s, code.value, tid) {
          var u :| u in s.users && u.referralCode == code.value && u.telegramId != tid;
          assert u in s1.users;
        }
      }
      Transition(End, Attribute(s1, Up(f, 5), Up(f, 6), code.value, tid, id), AutoRegistered)
    else
      Transition(End, s1, AutoRegistered)
  }

  /**
   * Lines 116-130: a caller without a username gets a session, created only when the read
   * finds none, and the `/start` argument is merged into its payload as `referral_code`,
   * replacing any earlier one. Call sites: 7 reads, 8 creates, 9 updates the session.
   */
  function OpenSession(s: Store, f: Faults, tid: int, code: Option<string>): (r: Transition)
    ensures r.next == Name && r.reply == AskFullName
    ensures r.store.(sessions := s.sessions) == s
    ensures HasSession(s, tid) ==> HasSession(r.store, tid)
    ensures Up(f, 7) && HasSession(s, tid) ==> SessionCount(r.store.sessions, tid) == SessionCount(s.sessions, tid)
    ensures Up(f, 7) && Up(f, 8) ==> HasSession(r.store, tid)
    ensures code.None? && HasSession(s, tid) ==> FirstSession(r.store, tid) == FirstSession(s, tid)
    ensures code.Some? && Up(f, 9) && HasSession(s, tid) ==>
              FirstSession(r.store, tid) == FirstSession(s, tid).(data := FirstSession(s, tid).data["referral_code" := JStr(code.value)])
    ensures Up(f, 7) && Up(f, 8) && !HasSession(s, tid) ==>
              FirstSession(r.store, tid)
              == Session(tid, FreshStep, if code.Some? && Up(f, 9) then map["referral_code" := JStr(code.value)] else map[])
    ensures OthersKept(s, r.store, tid)
    ensures !HasSession(s, tid) && !Up(f, 8) ==> r.store == s
    ensures Valid(s) ==> Valid(r.store)
  {
    var s1 := if GetUserSession(s, Up(f, 7), tid).None? then CreateUserSession(s, Up(f, 8), tid).store else s;
    ValidIgnoresSessions(s, s1);
    assert HasSession(s, tid) ==> HasSession(s1, tid) && FirstSession(s1, tid) == FirstSession(s, tid);
    if code.Some? then
      var piece := map["referral_code" := JStr(code.value)];
      var u := UpdateUserSession(s1, Up(f, 9), tid, None, piece);
      assert HasSession(s1, tid) && Up(f, 9) ==>
               FirstSession(u.store, tid) == FirstSession(s1, tid).(data := FirstSession(s1, tid).data["referral_code" := JStr(code.value)]) by {
        if HasSession(s1, tid) && Up(f, 9) {
          MergeOneKey(FirstSession(s1, tid).data, "referral_code", JStr(code.value));
        }
      }
      ValidIgnoresSessions(s, u.store);
      OthersKeptTrans(s, s1, u.store, tid);
      Transition(Name, u.store, AskFullName)
    else
      Transition(Name, s1, AskFullName)
  }

  /**
   * Lines 63-77: a registered caller is welcomed back, and a `/start` argument goes through
   * `ProcessReferralCode`. No session is touched and no user is created.
   */
  function Returning(s: Store, f: Faults, tid: int, code: Option<string>): (r: Transition)
    ensures r.next == End
    ensures r.store.users == s.users && r.store.sessions == s.sessions && r.store.payouts == s.payouts
    ensures r.store.admins == s.admins
    ensures code.None? ==> r == Transition(End, s, WelcomeBack)
    ensures code.Some? ==> AttributedAtMostOnce(s, r.store, code.value, tid)
    ensures code.Some? ==>
              r.store == ProcessReferralCode(s, f, code.value, tid).store
              && r.reply == ProcessReferralCode(s, f, code.value, tid).value
    ensures Valid(s) ==> Valid(r.store)
  {
    if code.Some? then
      var e := ProcessReferralCode(s, f, code.value, tid);
      Transition(End, e.store, e.value)
    else
      Transition(End, s, WelcomeBack)
  }

  /**
   * `start` (lines 51-134). Call site 0 is `user_exists`; a failed check reads as "not
   * registered". Sites 1-3 belong to `ProcessReferralCode`, 4-6 to `AutoRegister`, 7-9 to
   * `OpenSession`.
   */
  function Start(s: Store, f: Faults, caller: Caller, args: seq<string>, token: Token): (r: Transition)
    ensures r.next == End || r.next == Name
    ensures r.next == Name <==> !(Up(f, 0) && Registered(s, caller.telegramId)) && !HasUsername(caller)
    ensures r.next == End ==> r.store.sessions == s.sessions
    ensures r.store.payouts == s.payouts
    ensures r.next == Name ==> r == OpenSession(s, f, caller.telegramId, StartCode(args))
    ensures Up(f, 0) && Registered(s, caller.telegramId) ==>
              r == Returning(s, f, caller.telegramId, StartCode(args))
    ensures !(Up(f, 0) && Registered(s, caller.telegramId)) && HasUsername(caller) ==>
              r == AutoRegister(s, f, caller, StartCode(args), token)
    ensures r.next == Name ==> r.store.(sessions := s.sessions) == s && r.reply == AskFullName
    ensures r.store.admins == s.admins
    ensures Up(f, 0) && Registered(s, caller.telegramId) ==>
              r.store.users == s.users && (StartCode(args).None? ==> r == Transition(End, s, WelcomeBack))
    ensures StartCode(args).Some? ==> AttributedAtMostOnce(s, r.store, StartCode(args).value, caller.telegramId)
    ensures StartCode(args).None? ==> r.store.referrals == s.referrals
    ensures r.store.users != s.users <==>
              HasUsername(caller) && Up(f, 4) && !Registered(s, caller.telegramId)
              && !CodeTaken(s, NewCode(token)) && |caller.username.value| <= USERNAME_WIDTH
    ensures OthersKept(s, r.store, caller.telegramId)
    ensures Valid(s) ==> Valid(r.store)
  {
    var tid := caller.telegramId;
    var code := StartCode(args);
    if UserExists(s, Up(f, 0), tid) then
      Returning(s, f, tid, code)
    else if HasUsername(caller) then
      AutoRegister(s, f, caller, code, token)
    else
      OpenSession(s, f, tid, code)
  }

  // ---------------------------------------------------------------- NAME, EMAIL, PHONE

  const NAME_KEYS: set<string> := {"full_name", "last_name", "first_name", "patronymic"}

  /** The fields `get_name` stores: surname, given name, patronymic (or `''`) and the whole input. */
  function NamePiece(input: string, parts: seq<string>): (m: Payload)
    requires |parts| >= 2
    ensures m.Keys == NAME_KEYS
    ensures m["last_name"] == JStr(parts[0]) && m["first_name"] == JStr(parts[1])
    ensures m["patronymic"] == JStr(if |parts| > 2 then parts[2] else "")
    ensures m["full_name"] == JStr(input)
  {
    map["full_name" := JStr(input),
        "last_name" := JStr(parts[0]),
        "first_name" := JStr(parts[1]),
        "patronymic" := JStr(if |parts| > 2 then parts[2] else "")]
  }

  /**
   * The common tail of the three step handlers: read the payload (site 0), merge `piece`
   * into it and write it back with the next step (site 1).
   */
  function SaveStep(s: Store, f: Faults, tid: int, next: ConvState, piece: Payload): (r: Store)
    ensures r.(sessions := s.sessions) == s
    ensures HasSession(r, tid) <==> HasSession(s, tid)
    ensures !Up(f, 1) || !HasSession(s, tid) ==> r == s
    ensures Up(f, 1) && HasSession(s, tid) ==>
              FirstSession(r, tid) == Session(tid, Number(StateCode(next)), FirstSession(s, tid).data + piece)
    ensures OthersKept(s, r, tid)
  {
    var current := ReadPayload(s, Up(f, 0), tid);
    var u := UpdateUserSession(s, Up(f, 1), tid, Some(Number(StateCode(next))), current + piece);
    assert Up(f, 1) && HasSession(s, tid) ==> u.value.value.data == FirstSession(s, tid).data + piece by {
      if Up(f, 1) && HasSession(s, tid) {
        MergeOverSelf(FirstSession(s, tid).data, piece);
      }
    }
    u.store
  }

  /**
   * `get_name` (lines 161-192): at least two whitespace-separated words, else the step is
   * repeated with nothing written.
   */
  function GetName(s: Store, f: Faults, caller: Caller, text: string): (r: Transition)
    ensures var parts := Split(Strip(text));
            |parts| < 2 ==> r == Transition(Name, s, NameRejected)
    ensures var parts := Split(Strip(text));
            |parts| >= 2 ==> r.next == Email && r.reply == AskEmail
    ensures r.store.(sessions := s.sessions) == s
    ensures HasSession(r.store, caller.telegramId) <==> HasSession(s, caller.telegramId)
    ensures OthersKept(s, r.store, caller.telegramId)
    ensures !Up(f, 1) || !HasSession(s, caller.telegramId) ==> r.store == s
    ensures Up(f, 1) && HasSession(s, caller.telegramId) ==>
              forall k :: k in FirstSession(s, caller.telegramId).data && k !in NAME_KEYS ==>
                k in FirstSession(r.store, caller.telegramId).data
                && FirstSession(r.store, caller.telegramId).data[k] == FirstSession(s, caller.telegramId).data[k]
    ensures var parts := Split(Strip(text));
            |parts| >= 2 && Up(f, 1) && HasSession(s, caller.telegramId) ==>
              FirstSession(r.store, caller.telegramId)
              == Session(caller.telegramId, Number(StateCode(Email)),
                         FirstSession(s, caller.telegramId).data + NamePiece(Strip(text), parts))
  {
    var input := Strip(text);
    var parts := Split(input);
    if |parts| < 2 then Transition(Name, s, NameRejected)
    else Transition(Email, SaveStep(s, f, caller.telegramId, Email, NamePiece(input, parts)), AskEmail)
  }

  /** The value `get_email` stores: `null` for the skip token, else the stripped input. */
  function EmailValue(input: string): JsonValue {
    if input == SKIP then JNull else JStr(input)
  }

  /**
   * `get_email` (lines 194-221): the skip token or an input the e-mail pattern matches
   * moves on to PHONE; anything else repeats the step with nothing written.
   */
  function GetEmail(s: Store, f: Faults, caller: Caller, text: string): (r: Transition)
    ensures r.next == Email || r.next == Phone
    ensures r.next == Phone <==> Strip(text) == SKIP || EmailPattern.RegexMatches(Strip(text))
    ensures r.next == Email ==> r == Transition(Email, s, EmailRejected)
    ensures r.next == Phone ==> r.reply == AskPhone
    ensures r.store.(sessions := s.sessions) == s
    ensures HasSession(r.store, caller.telegramId) <==> HasSession(s, caller.telegramId)
    ensures OthersKept(s, r.store, caller.telegramId)
    ensures !Up(f, 1) || !HasSession(s, caller.telegramId) ==> r.store == s
    ensures r.next == Phone && Up(f, 1) && HasSession(s, caller.telegramId) ==>
              FirstSession(r.store, caller.telegramId)
              == Session(caller.telegramId, Number(StateCode(Phone)),
                         FirstSession(s, caller.telegramId).data["email" := EmailValue(Strip(text))])
  {
    var input := Strip(text);
    EmailPattern.StrippedInputMatchesIffRecognized(input);
    if input != SKIP && !EmailPattern.IsEmail(input) then Transition(Email, s, EmailRejected)
    else
      var piece := map["email" := EmailValue(input)];
      var s1 := SaveStep(s, f, caller.telegramId, Phone, piece);
      assert HasSession(s, caller.telegramId) ==>
               FirstSession(s, caller.telegramId).data + piece
               == FirstSession(s, caller.telegramId).data["email" := EmailValue(input)] by {
        if HasSession(s, caller.telegramId) {
          MergeOneKey(FirstSession(s, caller.telegramId).data, "email", EmailValue(input));
        }
      }
      Transition(Phone, s1, AskPhone)
  }

  /** The value `get_phone` stores: `null` for the skip token, else the stripped input as typed. */
  function PhoneValue(input: string): JsonValue {
    if input == SKIP then JNull else JStr(input)
  }

  /** `data.get(key, default) or default` for the e-mail and phone lines of the summary. */
  function ShownOrNotGiven(data: Payload, key: string): string {
    if key in data && data[key].JStr? && data[key].s != "" then data[key].s else NOT_GIVEN
  }

  /** The summary lines 245-257 build from a payload. */
  function Summarize(data: Payload, caller: Caller): (r: Summary)
    ensures r.pendingCode == PendingCode(data)
    ensures "full_name" in data && data["full_name"].JStr? ==> r.fullName == data["full_name"].s
    ensures "full_name" in data && data["full_name"] == JNull ==> r.fullName == "None"
    ensures "full_name" !in data ==> r.fullName == NOT_GIVEN_NAME
    ensures Field(data, "email").Some? && Field(data, "email").value != "" ==> r.email == Field(data, "email").value
    ensures Field(data, "email").None? || Field(data, "email").value == "" ==> r.email == NOT_GIVEN
    ensures Field(data, "phone").Some? && Field(data, "phone").value != "" ==> r.phone == Field(data, "phone").value
    ensures Field(data, "phone").None? || Field(data, "phone").value == "" ==> r.phone == NOT_GIVEN
    ensures HasUsername(caller) ==> r.handle == caller.username.value
    ensures !HasUsername(caller) ==> r.handle == NOT_GIVEN
  {
    Summary(
      if "full_name" !in data then NOT_GIVEN_NAME
      else if data["full_name"].JStr? then data["full_name"].s
      else "None",
      ShownOrNotGiven(data, "email"),
      ShownOrNotGiven(data, "phone"),
      if HasUsername(caller) then caller.username.value else NOT_GIVEN,
      PendingCode(data))
  }

  /**
   * `get_phone` (lines 223-264): the skip token or an input with at least ten digits moves
   * on to COMPLETE, storing the input as typed; anything else repeats the step with
   * nothing written. Site 2 re-reads the session for the summary, falling back on the
   * merged payload.
   */
  function GetPhone(s: Store, f: Faults, caller: Caller, text: string): (r: Transition)
    ensures r.next == Phone || r.next == Complete
    ensures r.next == Complete <==> Strip(text) == SKIP || CountDigits(Strip(text)) >= MIN_PHONE_DIGITS
    ensures r.next == Phone ==> r == Transition(Phone, s, PhoneRejected)
    ensures r.store.(sessions := s.sessions) == s
    ensures HasSession(r.store, caller.telegramId) <==> HasSession(s, caller.telegramId)
    ensures OthersKept(s, r.store, caller.telegramId)
    ensures !Up(f, 1) || !HasSession(s, caller.telegramId) ==> r.store == s
    ensures r.next == Complete && Up(f, 1) && HasSession(s, caller.telegramId) ==>
              FirstSession(r.store, caller.telegramId)
              == Session(caller.telegramId, Number(StateCode(Complete)),
                         FirstSession(s, caller.telegramId).data["phone" := PhoneValue(Strip(text))])
    ensures r.next == Complete && Up(f, 2) && HasSession(s, caller.telegramId) ==>
              r.reply == Confirm(Summarize(FirstSession(r.store, caller.telegramId).data, caller))
  {
    var tid := caller.telegramId;
    var input := Strip(text);
    if input != SKIP && CountDigits(input) < MIN_PHONE_DIGITS then Transition(Phone, s, PhoneRejected)
    else
      var piece := map["phone" := PhoneValue(input)];
      var s1 := SaveStep(s, f, tid, Complete, piece);
      assert HasSession(s, tid) ==> FirstSession(s, tid).data + piece == FirstSession(s, tid).data["phone" := PhoneValue(input)] by {
        if HasSession(s, tid) {
          MergeOneKey(FirstSession(s, tid).data, "phone", PhoneValue(input));
        }
      }
      var shown := match GetUserSession(s1, Up(f, 2), tid)
                   case Some(x) => x.data
                   case None => ReadPayload(s, Up(f, 0), tid) + piece;
      Transition(Complete, s1, Confirm(Summarize(shown, caller)))
  }

  // ---------------------------------------------------------------- COMPLETE

  /** `update.effective_user.username or f"user_{telegram_id}"`. */
  function UsernameFor(caller: Caller): (r: string)
    ensures HasUsername(caller) ==> r == caller.username.value
    ensures !HasUsername(caller) ==> r == "user_" + IntToString(caller.telegramId)
  {
    if HasUsername(caller) then caller.username.value else "user_" + IntToString(caller.telegramId)
  }

  /** The `users` row `create_user` would insert for this caller from `data`. */
  function RowFromPayload(id: nat, caller: Caller, data: Payload, code: string): User {
    User(id, caller.telegramId, UsernameFor(caller),
         Field(data, "first_name"), Field(data, "last_name"), Field(data, "patronymic"),
         Field(data, "email"), Field(data, "phone"), code, 0, true)
  }

  /** Whether every column of that row fits its width. */
  predicate PayloadFits(caller: Caller, data: Payload) {
    UserRowFits(UsernameFor(caller), Field(data, "first_name"), Field(data, "last_name"),
                Field(data, "patronymic"), Field(data, "email"), Field(data, "phone"))
  }

  /**
   * The `да` branch of `complete_registration` (lines 283-348): create the user from the
   * payload read at site 0 (site 2); on success link the pending code (sites 3 and 4) and
   * delete the session (site 5). A failed insert leaves the session in place.
   */
  function Confirmed(s: Store, f: Faults, caller: Caller, token: Token): (r: Transition)
    ensures r.next == End && (r.reply.RegistrationDone? || r.reply == RegistrationFailed)
    ensures r.store.admins == s.admins && r.store.payouts == s.payouts
    ensures r.reply == RegistrationFailed ==>
              r.store.referrals == s.referrals && r.store.sessions == s.sessions && r.store.payouts == s.payouts
    ensures Valid(s) && r.reply == RegistrationFailed ==> r.store == s
    ensures var data := ReadPayload(s, Up(f, 0), caller.telegramId);
            Valid(s) ==>
              (r.reply.RegistrationDone? <==>
                 Up(f, 2) && !Registered(s, caller.telegramId) && !CodeTaken(s, NewCode(token))
                 && PayloadFits(caller, data))
    ensures var data := ReadPayload(s, Up(f, 0), caller.telegramId);
            r.reply.RegistrationDone? ==>
              && r.reply.referralCode == NewCode(token)
              && r.store.users == s.users + [RowFromPayload(s.nextUserId, caller, data, NewCode(token))]
              && r.store.payouts == s.payouts
              && (PendingCode(data).Some? ==>
                    AttributedAtMostOnce(s, r.store, PendingCode(data).value, caller.telegramId))
              && (PendingCode(data).None? ==> r.store.referrals == s.referrals)
              && (Up(f, 5) ==> !HasSession(r.store, caller.telegramId))
    ensures var data := ReadPayload(s, Up(f, 0), caller.telegramId);
            Valid(s) && r.reply.RegistrationDone? && Up(f, 3) && Up(f, 4)
            && PendingCode(data).Some? && OwnedByOther(s, PendingCode(data).value, caller.telegramId) ==>
              |r.store.referrals| == |s.referrals| + 1
    ensures OthersKept(s, r.store, caller.telegramId)
    ensures Valid(s) ==> Valid(r.store)
  {
    var tid := caller.telegramId;
    var data := ReadPayload(s, Up(f, 0), tid);
    var created := CreateUser(s, Up(f, 2), tid, UsernameFor(caller),
                              Field(data, "first_name"), Field(data, "last_name"), Field(data, "patronymic"),
                              Field(data, "email"), Field(data, "phone"), token);
    if created.value.Some? && created.value.value.id != 0 then
      var s1 := created.store;
      var id := created.value.value.id;
      assert s1.users[|s1.users| - 1] in s1.users;
      var pending := PendingCode(data);
      assert pending.Some? && OwnedByOther(s, pending.value, tid) ==> OwnedByOther(s1, pending.value, tid) by {
        if pending.Some? && OwnedByOther(s, pending.value, tid) {
          var u :| u in s.users && u.referralCode == pending.value && u.telegramId != tid;
          assert u in s1.users;
        }
      }
      var s2 := if pending.Some? then Attribute(s1, Up(f, 3), Up(f, 4), pending.value, tid, id) else s1;
      var s3 := DeleteUserSession(s2, Up(f, 5), tid);
      assert pending.Some? ==> AttributedAtMostOnce(s, s3, pending.value, tid) by {
        if pending.Some? {
          AttributionCarriesOver(s, s1, s2, s3, pending.value, tid);
        }
      }
      Transition(End, s3, RegistrationDone(created.value.value.referralCode))
    else
      Transition(End, created.store, RegistrationFailed)
  }

  /**
   * `complete_registration` (lines 266-353). The answer is compared after `strip().lower()`:
   * `нет` sends the dialogue back to NAME, writing only the step (site 1); `да` registers;
   * anything else asks again.
   */
  function CompleteRegistration(s: Store, f: Faults, caller: Caller, text: string, token: Token): (r: Transition)
    ensures var answer := Lower(Strip(text));
            answer != YES && answer != NO ==> r == Transition(Complete, s, AskYesNo)
    ensures var answer := Lower(Strip(text));
            answer == NO ==>
              && r.next == Name && r.reply == StartOver && r.store.(sessions := s.sessions) == s
              && (HasSession(r.store, caller.telegramId) <==> HasSession(s, caller.telegramId))
    ensures var answer := Lower(Strip(text));
            answer == NO && Up(f, 1) && HasSession(s, caller.telegramId) ==>
              FirstSession(r.store, caller.telegramId)
              == FirstSession(s, caller.telegramId).(step := Number(StateCode(Name)))
    ensures Lower(Strip(text)) == NO && (!Up(f, 1) || !HasSession(s, caller.telegramId)) ==> r.store == s
    ensures Lower(Strip(text)) == YES ==> r == Confirmed(s, f, caller, token)
    ensures r.store.admins == s.admins && r.store.payouts == s.payouts
    ensures OthersKept(s, r.store, caller.telegramId)
    ensures Valid(s) ==> Valid(r.store)
  {
    var tid := caller.telegramId;
    var answer := Lower(Strip(text));
    if answer == NO then
      var u := UpdateUserSession(s, Up(f, 1), tid, Some(Number(StateCode(Name))), map[]);
      assert Up(f, 1) && HasSession(s, tid) ==> u.value.value.data == FirstSession(s, tid).data;
      ValidIgnoresSessions(s, u.store);
      Transition(Name, u.store, StartOver)
    else if answer == YES then
      Confirmed(s, f, caller, token)
    else
      Transition(Complete, s, AskYesNo)
  }

  /** `cancel` (lines 355-367): drops every session row of the caller (site 0) and ends. */
  function Cancel(s: Store, f: Faults, caller: Caller): (r: Transition)
    ensures r.next == End && r.reply == Cancelled
    ensures r.store.(sessions := s.sessions) == s
    ensures Up(f, 0) ==> !HasSession(r.store, caller.telegramId)
    ensures !Up(f, 0) ==> r.store == s
    ensures OthersKept(s, r.store, caller.telegramId)
  {
    Transition(End, DeleteUserSession(s, Up(f, 0), caller.telegramId), Cancelled)
  }

  // ---------------------------------------------------------------- properties of the steps

  /** A name typed as proper words joined by single spaces is stored word by word. */
  lemma GetNameStoresWords(s: Store, f: Faults, caller: Caller, ws: seq<string>)
    requires ProperWords(ws) && |ws| >= 2
    requires Up(f, 1) && HasSession(s, caller.telegramId)
    ensures var r := GetName(s, f, caller, JoinSpaced(ws));
            && r.next == Email
            && FirstSession(r.store, caller.telegramId).data["last_name"] == JStr(ws[0])
            && FirstSession(r.store, caller.telegramId).data["first_name"] == JStr(ws[1])
            && FirstSession(r.store, caller.telegramId).data["patronymic"] == JStr(if |ws| > 2 then ws[2] else "")
            && FirstSession(r.store, caller.telegramId).data["full_name"] == JStr(JoinSpaced(ws))
  {
    JoinSpacedUnpadded(ws);
    StripCharacterization("", JoinSpaced(ws), "");
    assert "" + JoinSpaced(ws) + "" == JoinSpaced(ws);
    SplitJoinRoundTrip(ws);
  }

  /**
   * The phone step accepts the skip token or an input in which at least ten positions
   * hold a digit, whatever else the input holds and in whatever order.
   */
  lemma GetPhoneDigitRule(s: Store, f: Faults, caller: Caller, text: string)
    ensures GetPhone(s, f, caller, text).next == Complete <==>
              Strip(text) == SKIP || |KeptAt(Strip(text), IsDigit)| >= MIN_PHONE_DIGITS
  {
    CountDigitsCounts(Strip(text));
  }

  /**
   * `create_user` reports failure by returning `(None, None)` rather than raising, so the
   * auto-registration never reaches its error reply: when the drawn code is already taken,
   * the caller is told they are registered and nothing is written.
   */
  lemma AutoRegisterAnnouncesFailedInsert(s: Store, caller: Caller, args: seq<string>, token: Token)
    requires HasUsername(caller) && !Registered(s, caller.telegramId)
    requires CodeTaken(s, NewCode(token))
    ensures Start(s, {}, caller, args, token) == Transition(End, s, AutoRegistered)
  {
  }
}

=== FILE: pytext.dfy ===
/**
 * The few Python `str` operations the bot's handlers rely on: `strip()`, `split()` with no
 * separator, `lower()`, `filter(pred, s)`, `str(int)` and `int(str)` in base 10.
 */
module PyText {

  import opened Base

  /** `str.isspace()`: the characters Python treats as whitespace in `strip()` and `split()`. */
  predicate IsSpace(c: char) {
    var n := c as int;
    || (9 <= n <= 13) || (28 <= n <= 32)
    || n == 0x85 || n == 0xA0 || n == 0x1680
    || (0x2000 <= n <= 0x200A)
    || n == 0x2028 || n == 0x2029 || n == 0x202F || n == 0x205F || n == 0x3000
  }

  /** An ASCII decimal digit (the model's reading of `str.isdigit`). */
  predicate IsDigit(c: char) {
    '0' <= c <= '9'
  }

  /** An ASCII letter, the class `[a-zA-Z]`. */
  predicate IsAsciiLetter(c: char) {
    ('a' <= c <= 'z') || ('A' <= c <= 'Z')
  }

  predicate AllSpace(s: string) {
    forall k :: 0 <= k < |s| ==> IsSpace(s[k])
  }

  predicate NoSpace(s: string) {
    forall k :: 0 <= k < |s| ==> !IsSpace(s[k])
  }

  predicate AllDigits(s: string) {
    forall k :: 0 <= k < |s| ==> IsDigit(s[k])
  }

  /** Neither starts nor ends with whitespace. */
  predicate Unpadded(s: string) {
    |s| == 0 || (!IsSpace(s[0]) && !IsSpace(s[|s| - 1]))
  }

  predicate StartsWith(s: string, prefix: string) {
    |prefix| <= |s| && s[..|prefix|] == prefix
  }

  // ---------------------------------------------------------------- strip

  /** Length of the whitespace run at the front of `s`. */
  function LeadingSpaces(s: string): (n: nat)
    ensures n <= |s|
    ensures forall k :: 0 <= k < n ==> IsSpace(s[k])
    ensures n < |s| ==> !IsSpace(s[n])
    decreases |s|
  {
    if |s| == 0 || !IsSpace(s[0]) then 0 else 1 + LeadingSpaces(s[1..])
  }

  /** Length of the whitespace run at the back of `s`. */
  function TrailingSpaces(s: string): (n: nat)
    ensures n <= |s|
    ensures forall k :: |s| - n <= k < |s| ==> IsSpace(s[k])
    ensures n < |s| ==> !IsSpace(s[|s| - n - 1])
    decreases |s|
  {
    if |s| == 0 || !IsSpace(s[|s| - 1]) then 0 else 1 + TrailingSpaces(s[..|s| - 1])
  }

  /** `r` is `s` with the whitespace `s[..i]` in front and the whitespace after `r` removed. */
  predicate StrippedAt(s: string, r: string, i: nat) {
    && i + |r| <= |s|
    && s[i..i + |r|] == r
    && AllSpace(s[..i])
    && AllSpace(s[i + |r|..])
  }

  /** `s.strip()`: the unpadded middle of `s` once leading and trailing whitespace is removed. */
  function Strip(s: string): (r: string)
    ensures Unpadded(r)
    ensures StrippedAt(s, r, LeadingSpaces(s))
  {
    var a := LeadingSpaces(s);
    var t := s[a..];
    var b := TrailingSpaces(t);
    var r := t[..|t| - b];
    assert s[a..a + |r|] == r;
    assert s[a + |r|..] == t[|t| - b..];
    r
  }

  /** Padding of whitespace on both sides is exactly what `strip()` removes. */
  lemma StripCharacterization(p: string, r: string, q: string)
    requires AllSpace(p) && AllSpace(q) && Unpadded(r)
    ensures Strip(p + r + q) == r
  {
    var s := p + r + q;
    var a := LeadingSpaces(s);
    if |r| > 0 {
      assert s[|p|] == r[0];
      assert a == |p|;
    } else {
      assert AllSpace(s) by {
        forall k | 0 <= k < |s| ensures IsSpace(s[k]) {
          if k < |p| { assert s[k] == p[k]; } else { assert s[k] == q[k - |p|]; }
        }
      }
    }
    var t := s[a..];
    if |r| > 0 {
      assert t == r + q;
      var b := TrailingSpaces(t);
      assert t[|t| - |q| - 1] == r[|r| - 1];
      assert b == |q|;
      assert t[..|t| - b] == r;
    }
  }

  /** `strip()` leaves a string without surrounding whitespace as it is. */
  lemma StripUnpadded(s: string)
    requires Unpadded(s)
    ensures Strip(s) == s
  {
    StripCharacterization("", s, "");
    assert "" + s + "" == s;
  }

  lemma StripIdempotent(s: string)
    ensures Strip(Strip(s)) == Strip(s)
  {
    StripCharacterization("", Strip(s), "");
    assert "" + Strip(s) + "" == Strip(s);
  }

  // ---------------------------------------------------------------- split

  /** Length of the non-whitespace run at the front of `s`. */
  function WordLength(s: string): (n: nat)
    ensures n <= |s|
    ensures forall k :: 0 <= k < n ==> !IsSpace(s[k])
    ensures n < |s| ==> IsSpace(s[n])
    decreases |s|
  {
    if |s| == 0 || IsSpace(s[0]) then 0 else 1 + WordLength(s[1..])
  }

  /** `s.split()`: the maximal runs of non-whitespace characters, in order. */
  function Split(s: string): (r: seq<string>)
    ensures forall k :: 0 <= k < |r| ==> |r[k]| > 0 && NoSpace(r[k])
    decreases |s|
  {
    if |s| == 0 then []
    else if IsSpace(s[0]) then Split(s[1..])
    else
      var n := WordLength(s);
      [s[..n]] + Split(s[n..])
  }

  /** `' '.join(ws)`. */
  function JoinSpaced(ws: seq<string>): string
    decreases |ws|
  {
    if |ws| == 0 then ""
    else if |ws| == 1 then ws[0]
    else ws[0] + " " + JoinSpaced(ws[1..])
  }

  predicate ProperWords(ws: seq<string>) {
    forall k :: 0 <= k < |ws| ==> |ws[k]| > 0 && NoSpace(ws[k])
  }

  lemma {:induction false} WordLengthOfWord(w: string, t: string)
    requires NoSpace(w)
    requires |t| == 0 || IsSpace(t[0])
    ensures WordLength(w + t) == |w|
    decreases |w|
  {
    if |w| > 0 {
      assert (w + t)[1..] == w[1..] + t;
      WordLengthOfWord(w[1..], t);
    }
  }

  /** Splitting a space-joined list of words gives the words back. */
  lemma {:induction false} SplitJoinRoundTrip(ws: seq<string>)
    requires ProperWords(ws)
    ensures Split(JoinSpaced(ws)) == ws
    decreases |ws|
  {
    if |ws| == 1 {
      var w := ws[0];
      WordLengthOfWord(w, "");
      assert w + "" == w;
      assert w[..|w|] == w;
      assert w[|w|..] == "";
    } else if |ws| > 1 {
      var w := ws[0];
      var rest := JoinSpaced(ws[1..]);
      var s := w + " " + rest;
      assert s == w + (" " + rest);
      WordLengthOfWord(w, " " + rest);
      assert s[..|w|] == w;
      var tail := s[|w|..];
      assert tail == " " + rest;
      assert tail[1..] == rest;
      assert Split(tail) == Split(rest);
      SplitJoinRoundTrip(ws[1..]);
      assert ws == [w] + ws[1..];
    }
  }

  /** Joining proper words gives a string with no surrounding whitespace, non-empty when there are words. */
  lemma {:induction false} JoinSpacedUnpadded(ws: seq<string>)
    requires ProperWords(ws)
    ensures Unpadded(JoinSpaced(ws))
    ensures |ws| > 0 ==> |JoinSpaced(ws)| > 0 && JoinSpaced(ws)[0] == ws[0][0]
    decreases |ws|
  {
    if |ws| > 1 {
      var rest := JoinSpaced(ws[1..]);
      JoinSpacedUnpadded(ws[1..]);
      var s := ws[0] + " " + rest;
      assert s[0] == ws[0][0];
      assert s[|s| - 1] == rest[|rest| - 1];
    }
  }

  // ---------------------------------------------------------------- lower

  /** Upper-case letters `lower()` changes in this model: ASCII `A-Z` and Cyrillic `Ѐ-Я`. */
  predicate IsUpper(c: char) {
    ('A' <= c <= 'Z') || (0x400 <= c as int <= 0x42F)
  }

  function LowerChar(c: char): (d: char)
    ensures !IsUpper(d)
    ensures !IsUpper(c) ==> d == c
    ensures IsSpace(d) <==> IsSpace(c)
  {
    var n := c as int;
    if 'A' <= c <= 'Z' then (n + 32) as char
    else if 0x410 <= n <= 0x42F then (n + 32) as char
    else if 0x400 <= n <= 0x40F then (n + 80) as char
    else c
  }

  /** `s.lower()`, restricted to ASCII and Cyrillic letters. */
  function Lower(s: string): (r: string)
    ensures |r| == |s|
    ensures forall k :: 0 <= k < |r| ==> !IsUpper(r[k])
  {
    seq(|s|, k requires 0 <= k < |s| => LowerChar(s[k]))
  }

  /** The fixed points of `lower()` are the strings with no upper-case letter. */
  lemma LowerFixedPoints(s: string)
    ensures Lower(s) == s <==> forall k :: 0 <= k < |s| ==> !IsUpper(s[k])
  {
    if forall k :: 0 <= k < |s| ==> !IsUpper(s[k]) {
      assert forall k :: 0 <= k < |s| ==> Lower(s)[k] == s[k];
    }
  }

  lemma LowerIdempotent(s: string)
    ensures Lower(Lower(s)) == Lower(s)
  {
  }

  /** Lower-casing never touches whitespace, so it commutes with `strip()`. */
  lemma StripLowerCommute(s: string)
    ensures Strip(Lower(s)) == Lower(Strip(s))
  {
    var r := Strip(s);
    var i := LeadingSpaces(s);
    var L := Lower(s);
    assert L == Lower(s[..i]) + Lower(r) + Lower(s[i + |r|..]);
    StripCharacterization(Lower(s[..i]), Lower(r), Lower(s[i + |r|..]));
  }

  // ---------------------------------------------------------------- filter

  /** `''.join(filter(keep, s))`: the characters of `s` that satisfy `keep`, in order. */
  function Filter(s: string, keep: char -> bool): (r: string)
    ensures |r| <= |s|
    ensures forall k :: 0 <= k < |r| ==> keep(r[k])
    ensures forall k :: 0 <= k < |s| && keep(s[k]) ==> s[k] in r
    ensures forall k :: 0 <= k < |r| ==> r[k] in s
    ensures (forall k :: 0 <= k < |s| ==> keep(s[k])) ==> r == s
    decreases |s|
  {
    if |s| == 0 then ""
    else (if keep(s[0]) then [s[0]] else "") + Filter(s[1..], keep)
  }

  lemma {:induction false} FilterAppend(a: string, b: string, keep: char -> bool)
    ensures Filter(a + b, keep) == Filter(a, keep) + Filter(b, keep)
    decreases |a|
  {
    if |a| > 0 {
      assert (a + b)[1..] == a[1..] + b;
      FilterAppend(a[1..], b, keep);
    } else {
      assert a + b == b;
    }
  }

  /** The positions of `s` whose character satisfies `keep`. */
  function KeptAt(s: string, keep: char -> bool): set<int> {
    set k | 0 <= k < |s| && keep(s[k])
  }

  /** Removing the last character removes its position, and no other, from `KeptAt`. */
  lemma KeptAtSnoc(s: string, keep: char -> bool)
    requires |s| > 0
    ensures |KeptAt(s, keep)| == |KeptAt(s[..|s| - 1], keep)| + if keep(s[|s| - 1]) then 1 else 0
  {
    var n := |s|;
    var init := s[..n - 1];
    var tail: set<int> := if keep(s[n - 1]) then {n - 1} else {};
    forall k ensures k in KeptAt(s, keep) <==> k in KeptAt(init, keep) + tail {
      if 0 <= k < n - 1 {
        assert s[k] == init[k];
      }
    }
    assert KeptAt(s, keep) == KeptAt(init, keep) + tail;
    assert n - 1 !in KeptAt(init, keep);
  }

  /** `filter` keeps one character for every position that satisfies `keep`, and no more. */
  lemma {:induction false} FilterCount(s: string, keep: char -> bool)
    ensures |Filter(s, keep)| == |KeptAt(s, keep)|
    decreases |s|
  {
    if |s| == 0 {
      assert KeptAt(s, keep) == {};
    } else {
      var n := |s|;
      var init := s[..n - 1];
      var last: string := [s[n - 1]];
      assert s == init + last;
      FilterAppend(init, last, keep);
      assert Filter(last, keep) == if keep(s[n - 1]) then last else "" by {
        assert last[1..] == [];
      }
      FilterCount(init, keep);
      KeptAtSnoc(s, keep);
    }
  }

  /** Number of ASCII digits in `s`: `len(''.join(filter(str.isdigit, s)))`. */
  function CountDigits(s: string): nat {
    |Filter(s, IsDigit)|
  }

  /** `CountDigits` is the number of positions of `s` holding a digit. */
  lemma CountDigitsCounts(s: string)
    ensures CountDigits(s) == |KeptAt(s, IsDigit)|
  {
    FilterCount(s, IsDigit);
  }

  // ---------------------------------------------------------------- integers

  function DigitChar(d: nat): (c: char)
    requires d < 10
    ensures IsDigit(c)
  {
    ('0' as int + d) as char
  }

  /** `str(n)` for a non-negative `n`. */
  function NatToString(n: nat): (r: string)
    ensures |r| > 0 && AllDigits(r)
    decreases n
  {
    if n < 10 then [DigitChar(n)] else NatToString(n / 10) + [DigitChar(n % 10)]
  }

  /** `str(n)`: decimal with a leading `-` for negatives. */
  function IntToString(n: int): (r: string)
    ensures |r| > 0
  {
    if n < 0 then "-" + NatToString(-n) else NatToString(n)
  }

  /** The value of a string of decimal digits, most significant first. */
  function DigitsValue(s: string): nat
    requires AllDigits(s)
    decreases |s|
  {
    if |s| == 0 then 0 else DigitsValue(s[..|s| - 1]) * 10 + (s[|s| - 1] as int - '0' as int)
  }

  /** Digits with single `_` separators strictly between digits: what `int()` accepts after the sign. */
  predicate DecimalLiteral(s: string) {
    && |s| > 0
    && forall k :: 0 <= k < |s| ==>
         IsDigit(s[k]) || (s[k] == '_' && 0 < k < |s| - 1 && IsDigit(s[k - 1]) && IsDigit(s[k + 1]))
  }

  /** `int(s)` in base 10: `None` where Python raises `ValueError`. */
  function ParseInt(s: string): (r: Option<int>)
    ensures r.Some? ==> |Strip(s)| > 0
  {
    ParseSigned(Strip(s))
  }

  /** `int()` on text without surrounding whitespace: an optional sign, then a decimal literal. */
  function ParseSigned(t: string): (r: Option<int>)
    ensures r.Some? ==> |t| > 0
  {
    var signed := |t| > 0 && (t[0] == '-' || t[0] == '+');
    var body := if signed then t[1..] else t;
    if !DecimalLiteral(body) then None
    else
      var v: int := DigitsValue(Filter(body, IsDigit));
      Some(if signed && t[0] == '-' then -v else v)
  }

  lemma {:induction false} NatToStringValue(n: nat)
    ensures DigitsValue(NatToString(n)) == n
    decreases n
  {
    var s := NatToString(n);
    if n >= 10 {
      var p := NatToString(n / 10);
      assert s == p + [DigitChar(n % 10)];
      assert s[..|s| - 1] == p;
      NatToStringValue(n / 10);
    }
  }

  lemma PlainDigitsLiteral(digits: string)
    requires |digits| > 0 && AllDigits(digits)
    ensures DecimalLiteral(digits)
    ensures Filter(digits, IsDigit) == digits
  {
  }

  lemma DigitStringUnpadded(sign: string, digits: string)
    requires |sign| <= 1 && (|sign| == 1 ==> sign[0] == '-')
    requires |digits| > 0 && AllDigits(digits)
    ensures Strip(sign + digits) == sign + digits
  {
    var t := sign + digits;
    assert t[|t| - 1] == digits[|digits| - 1];
    assert !IsSpace(t[0]);
    StripCharacterization("", t, "");
    assert "" + t + "" == t;
  }

  lemma ParseNatString(m: nat)
    ensures ParseSigned(NatToString(m)) == Some(m)
  {
    var digits := NatToString(m);
    NatToStringValue(m);
    PlainDigitsLiteral(digits);
  }

  lemma ParseNegatedNatString(m: nat)
    ensures ParseSigned("-" + NatToString(m)) == Some(-(m as int))
  {
    var digits := NatToString(m);
    NatToStringValue(m);
    PlainDigitsLiteral(digits);
    assert ("-" + digits)[1..] == digits;
  }

  /** `int(str(n)) == n`. */
  lemma IntToStringRoundTrip(n: int)
    ensures ParseInt(IntToString(n)) == Some(n)
  {
    var t := IntToString(n);
    if n < 0 {
      var m: nat := -n;
      assert t == "-" + NatToString(m);
      DigitStringUnpadded("-", NatToString(m));
      ParseNegatedNatString(m);
    } else {
      assert t == NatToString(n);
      DigitStringUnpadded("", NatToString(n));
      assert "" + NatToString(n) == NatToString(n);
      assert Strip(t) == t;
      ParseNatString(n);
    }
  }
}

=== FILE: referral_code.dfy ===
/**
 * Referral codes as `create_user` draws them: `secrets.token_hex(4).upper()`, i.e. four
 * random bytes written as eight upper-case hexadecimal digits. The random bytes are a
 * parameter (`Token`); the code is a pure function of them.
 */
module ReferralCode {

  newtype byte = x: int | 0 <= x < 256

  /** The four bytes `secrets.token_hex(4)` draws. */
  type Token = t: seq<byte> | |t| == 4 witness [0, 0, 0, 0]

  /** Characters of `token_hex(...).upper()`: `0-9` and `A-F`. */
  predicate IsHexDigit(c: char) {
    ('0' <= c <= '9') || ('A' <= c <= 'F')
  }

  predicate AllHex(s: string) {
    forall k :: 0 <= k < |s| ==> IsHexDigit(s[k])
  }

  /** The shape of every code `create_user` can store: eight upper-case hex digits. */
  predicate IsReferralCode(s: string) {
    |s| == 8 && AllHex(s)
  }

  function HexDigit(n: nat): (c: char)
    requires n < 16
    ensures IsHexDigit(c)
  {
    if n < 10 then ('0' as int + n) as char else ('A' as int + n - 10) as char
  }

  function HexValue(c: char): (n: nat)
    requires IsHexDigit(c)
    ensures n < 16 && HexDigit(n) == c
  {
    if c <= '9' then c as int - '0' as int else c as int - 'A' as int + 10
  }

  lemma HexValueOfDigit(n: nat)
    requires n < 16
    ensures HexValue(HexDigit(n)) == n
  {
  }

  /** `bytes.hex().upper()`: two digits per byte, high nibble first. */
  function HexUpper(bytes: seq<byte>): (r: string)
    ensures |r| == 2 * |bytes|
    ensures AllHex(r)
    decreases |bytes|
  {
    if |bytes| == 0 then ""
    else
      var b := bytes[0] as int;
      [HexDigit(b / 16), HexDigit(b % 16)] + HexUpper(bytes[1..])
  }

  /** Reads an even-length string of upper-case hex digits back into bytes. */
  function ParseHex(s: string): (r: seq<byte>)
    requires |s| % 2 == 0 && AllHex(s)
    ensures |r| == |s| / 2
    decreases |s|
  {
    if |s| == 0 then []
    else [(HexValue(s[0]) * 16 + HexValue(s[1])) as byte] + ParseHex(s[2..])
  }

  lemma {:induction false} HexRoundTrip(bytes: seq<byte>)
    ensures ParseHex(HexUpper(bytes)) == bytes
    decreases |bytes|
  {
    if |bytes| > 0 {
      var b := bytes[0] as int;
      var s := HexUpper(bytes);
      HexValueOfDigit(b / 16);
      HexValueOfDigit(b % 16);
      assert s[2..] == HexUpper(bytes[1..]);
      HexRoundTrip(bytes[1..]);
      assert bytes == [bytes[0]] + bytes[1..];
    }
  }

  /** The referral code generated from the random bytes `t`. */
  function NewCode(t: Token): (r: string)
    ensures IsReferralCode(r)
  {
    HexUpper(t)
  }

  /** Distinct random draws give distinct codes, and a code determines the draw it came from. */
  lemma NewCodeInjective(a: Token, b: Token)
    ensures NewCode(a) == NewCode(b) <==> a == b
  {
    HexRoundTrip(a);
    HexRoundTrip(b);
  }
}
